=== FILE: README.md ===
# PSIRM in Dafny: the Photoshop icon-resource codec

This project models the core of `psirm.py` (Photoshop Icon Resources
Manipulator) in Dafny and proves properties of the model. It covers:

- the index file `IconResources.idx`: a header line, four 128-byte data file
  name slots, then a run of 368-byte image metadata records;
- the metadata record: a byte buffer holding a NUL-terminated name and twelve
  little-endian u32 fields;
- unpacking: each record's low and high image is copied out of the two data
  files into `Low/<name>.png` and `High/<name>.png`;
- repacking: the two data files are rebuilt from replacement PNGs, each image
  written at its record's old offset (exactly there when the original slots,
  in offset order, do not overlap; a slot that runs past the next offset
  pushes the next image to the end of what was written). The records are
  updated with the new PNG sizes and dimensions, read from the `IHDR` chunk,
  and a new index is written.

Modules, one per file, in dependency order:

| file | module | models |
|---|---|---|
| `results.dfy` | `Results` | Python exceptions as `Result`/`Option` with `:-` |
| `primitives.dfy` | `Primitives` | `read_string`, `write_string`, `read_int`, `write_int`, strict UTF-8 decoding, Python slicing |
| `metadata.dfy` | `Metadata` | `ImageMetadata`: fields, the name setter, `set_dimensions`, `set_position`, `get_position` |
| `index.dfy` | `IndexCodec` | `unpack_metadata`, `pack_metadata`, `unpack_index`, `pack_index` |
| `png.dfy` | `PngHeader` | `get_png_dimensions` |
| `extract.dfy` | `Extractor` | `extract_resource`, `unpack_resources` |
| `packer.dfy` | `Packer` | `pack_resources` with its inner `write_png` and `get_metadata` |

How the system's surroundings are represented:

- Bytes are `byte` (an `int` subtype in [0, 256)).
- Names are the bytes of their UTF-8 encoding. Decoding them, which fails on
  bytes that are not well-formed UTF-8 (section 4 of RFC 3629, what Python's
  strict decoder accepts), is the predicate `Utf8`.
- A directory is a `map` from file name to contents.
- The extraction tree maps `PngKey(tier, name)` to contents.
- A missing index file is `None`.
- Every exception is an `Error` value: `StructError` for `struct.error`,
  `IndexError`, `IOError` for `OSError`/`IOError`, `MemoryError`, and
  `DecodeError` for `UnicodeDecodeError`.
- Each operation returns the file state it leaves behind together with the
  error that ended it. The writes made before an exception therefore stay
  visible, as they do on disk.

## Model

| member | source | states |
|---|---|---|
| `Primitives.ReadString` | psirm.py:30-32 | the result is the prefix of the input before its first NUL: it holds no NUL and is followed by a NUL unless it is the whole input |
| `Primitives.WriteString` | psirm.py:38-44 | the string followed only by NULs, `padding` bytes in all when it fits, and the string plus exactly one NUL (not truncated) when it is longer |
| `Primitives.ReadInt` | psirm.py:34-36 | `struct.unpack('<I')` succeeds exactly on four-byte input, with a value below 2^32 |
| `Primitives.WriteInt` | psirm.py:46-48 | `struct.pack('<I')` succeeds exactly for 0 <= n < 2^32, giving four bytes with the least significant first |
| `Primitives.ReadWriteInt` | psirm.py:34-48 | reading back a written integer gives the integer, for every value `write_int` accepts |
| `Primitives.WriteReadInt` | psirm.py:34-48 | writing back a read integer gives the same four bytes, so the integer codec is a bijection |
| `Primitives.CharLength` | psirm.py:32 | the length of the well-formed UTF-8 character at the start of the input: 1 exactly for an ASCII byte, otherwise followed by continuation bytes only, and never past the input |
| `Primitives.AsciiIsUtf8` | psirm.py:32 | every ASCII byte sequence decodes |
| `Primitives.ReadWriteString` | psirm.py:30-44 | a NUL-free string shorter or longer than its field reads back unchanged from its written form, whatever bytes follow; one exactly as long as the field gets no padding and reads back unchanged if and only if a NUL or nothing follows |
| `Metadata.FieldsApart` | psirm.py:75-86 | the twelve fields lie after the 48-byte name, inside a 368-byte record, and no two overlap |
| `Metadata.GetField` | psirm.py:64-67 | a field reads successfully exactly when the buffer covers its four bytes, and the value re-encodes to those bytes |
| `Metadata.SetField` | psirm.py:68-73 | a set succeeds exactly when the buffer covers the field (the old value is read first), the name decodes or the value is unchanged (only a change prints the name), and the value fits a u32; a change to a record whose name does not decode is a DecodeError; afterwards the field reads back the value and every other byte is unchanged |
| `Metadata.SetFieldFrame` | psirm.py:64-86 | setting one field leaves every other field, and the name, reading as before |
| `Metadata.SetName` | psirm.py:59-62 | the name setter fails exactly when the buffer is shorter than what it writes; on success the buffer starts with what `write_string(value, 48)` writes and every byte after it is kept; a name that fits leaves all fields alone, and a NUL-free one reads back as the name |
| `Metadata.TierParity` | psirm.py:88-107 | `rtype` and `rtype + 2` address the same width, length, offset and size fields |
| `Metadata.SetTwo` | psirm.py:88-98 | two fields set in order succeed exactly when the later one is covered, both values fit a u32 and the name decodes or neither value changes; both read back, and the name, all other fields and every byte outside the two fields are kept |
| `Metadata.SetDimensions` | psirm.py:88-92 | the tier `rtype % 2` gets the width and length; other fields, the name and every byte outside the two fields are kept; and the precise failure condition, decoding included |
| `Metadata.SetPosition` | psirm.py:94-98 | `get_position` afterwards returns the pair set; other fields, the name and every byte outside the two fields are kept; and the precise failure condition, decoding included |
| `Metadata.GetPosition` | psirm.py:100-107 | the (offset, size) pair is the tier's two fields, failing exactly when the buffer is too short for the size field |
| `IndexCodec.HeaderHasOneNewLine` | psirm.py:26 | the header literal has a newline as its last byte and nowhere else |
| `IndexCodec.ReadLine` | psirm.py:123 | `readline()` returns a prefix of the file with no newline before its end, ending in a newline unless it is the whole file |
| `IndexCodec.ReadLineHeader` | psirm.py:123-124 | a file that starts with the header reads exactly the header as its first line |
| `IndexCodec.Records` | psirm.py:109-114 | the records cut by repeated `read(368)` concatenate back to the input, are never empty and are all full-size except possibly the last |
| `IndexCodec.RecordsOfConcat` | psirm.py:109-118 | cutting the concatenation of `pack_metadata` outputs of such records gives the records back |
| `IndexCodec.UnpackIndex` | psirm.py:120-131 | four names; the header check is a flag, not a failure; the records hold exactly the bytes after the four slots, or none when the file ends earlier (whether the header and names decode is `IndexDecodes`) |
| `IndexCodec.Concat` | psirm.py:116-118 | `pack_metadata` of each record in turn: the first record's bytes lead, and records of 368 bytes give 368 bytes each |
| `IndexCodec.Slot` | psirm.py:151-152 | a name slot is 128 bytes when the name fits and always ends in a newline |
| `IndexCodec.PackIndex` | psirm.py:145-154 | a packed index starts with the header and ends with the records' bytes |
| `IndexCodec.PackedIndexDecodes` | psirm.py:120-154 | a packed index whose names are UTF-8, fit their slots and hold no NUL decodes: header and names |
| `IndexCodec.PackIndexLayout` | psirm.py:145-154 | where the header, each slot and the records lie in a packed index |
| `IndexCodec.UnpackPackIndex` | psirm.py:120-154 | decoding a packed index gives a valid header, the four names (each shorter than 127 bytes and NUL-free) and, for records of the shape a read produces, the records |
| `IndexCodec.PackUnpackIndex` | psirm.py:120-154 | encoding a decoded index with a valid header and canonical slots reproduces the file byte for byte |
| `PngHeader.FindIhdr` | psirm.py:179-185 | the first position at or after `from` where `IHDR` starts, or none |
| `PngHeader.PngDimensions` | psirm.py:177-189 | IOError exactly when the file has no `IHDR`; success exactly when eight bytes follow the first one; the values are the two big-endian integers after it |
| `PngHeader.DrumMatches` | psirm.py:179-185 | the four-byte drum reads `IHDR` exactly when the last four bytes read are `IHDR` (the initial '0's never take part) |
| `PngHeader.ReadPngDimensions` | psirm.py:177-189 | the byte-by-byte drum loop computes exactly PngDimensions |
| `Extractor.ReadAt` | psirm.py:171-174 | `seek(offset)` then `read(size)` gives the range [offset, offset + size) of the file, cut short at its end, and exactly that range when it lies inside the file |
| `Extractor.ExtractResource` | psirm.py:156-175 | a name that does not decode fails first; a record too short for the tier's fields fails; size 0 skips and writes nothing; otherwise it succeeds exactly when the data file exists, and writes only `<tier>/<name>.png`, with the record's byte range |
| `Extractor.ExtractKeepsOthers` | psirm.py:156-175 | one extraction leaves every other output file as it was |
| `Extractor.ExtractWrites` | psirm.py:165-175 | a successful extraction of a record with an image puts the record's byte range of the tier's data file at its key |
| `Extractor.UnpackRecords` | psirm.py:201-207 | the loop over the records never removes an output file |
| `Extractor.UnpackFrame` | psirm.py:201-207 | whether unpacking fails or not, an output file that no record has an image for is not created, removed or changed |
| `Extractor.UnpackStep` | psirm.py:201-207 | a successful unpack extracts both tiers of the first record, then unpacks the rest |
| `Extractor.FirstRecordWins` | psirm.py:201-207 | the first record's image survives to the end when no later record writes the same file |
| `Extractor.UnpackLastWins` | psirm.py:201-207 | after a successful unpack, each file holds the image of the last record that writes it, read from the tier's data file |
| `Extractor.UnpackResources` | psirm.py:191-207 | a missing index is an IOError and a header or data file name that does not decode a DecodeError, both writing nothing; otherwise files no record extracts are left as they were |
| `Extractor.UnpackedSlot` | psirm.py:164-175 | after a successful unpack, the image of the last record with that tier and name is exactly its slot `[off, off + size)` of the data file, when the slot lies inside the file |
| `Extractor.UnpackResourcesLastWins` | psirm.py:191-207 | after a successful unpack of an index, `<tier>/<name>.png` holds the byte range the last record with that tier and name gives, of the data file the index names for the tier |
| `Packer.Offsets` | psirm.py:244-249 | the tier offsets of all records in order, failing exactly when some record is too short to hold the offset field |
| `Packer.CollectOffsets` | psirm.py:244-249 | both offset lists, failing exactly when some record is shorter than the high offset field |
| `Packer.OffsetIndex` | psirm.py:247-248 | the dictionary's keys are the offsets, each maps to a record with that offset, and no later record has it (a later record replaces an earlier one) |
| `Packer.Insert` | psirm.py:251 | inserting into a strictly increasing sequence keeps it strictly increasing and adds exactly the element |
| `Packer.SortedOffsets` | psirm.py:251 | `sorted(offsets)` is strictly increasing and holds exactly the offsets |
| `Packer.Pad` | psirm.py:252-253 | zeros are appended up to the offset, and nothing when the file is already past it |
| `Packer.WritePng` | psirm.py:225-237 | a missing PNG writes nothing and gives 0; an oversized one is written whole and then fails; one that fits is written and zero-padded to the old size |
| `Packer.UpdateRecord` | psirm.py:260-261 | a PNG without `IHDR` propagates the error; on success the tier's dimensions are the PNG's, its position is (offset, PNG length), and every other field, the length, the name and every byte outside the tier's four fields are kept |
| `Packer.PlaceImage` | psirm.py:256-261 | the output after `write_png` in every case; on failure the record is unchanged; on success with a non-empty PNG, the PNG fits its slot and the record is updated as UpdateRecord says |
| `Packer.TierStep` | psirm.py:251-261 | one offset: the output only grows, past the padding; only the named record changes and keeps its length and name; offset 0 does nothing; a name that does not decode fails after the padding |
| `Packer.PackTier` | psirm.py:250-261 | the loop over one tier's offsets: the output only grows, the lengths and names of records are kept, and records no offset names are untouched |
| `Packer.PackTierPlacement` | psirm.py:250-261 | after a successful tier pass over non-overlapping slots, every replacement image sits at its offset and all other new bytes are zero |
| `Packer.PackTierRecords` | psirm.py:250-261 | after a successful tier pass, each record an offset names is updated exactly when a non-empty replacement exists, every byte outside the tier's four fields kept, and is left alone otherwise |
| `Packer.StepOversized` | psirm.py:233-234 | an oversized replacement ends the pass with the padded output plus the whole PNG, and a MemoryError |
| `Packer.StepMisplaced` | psirm.py:252-261 | when the output is already past a nonzero offset, the image lands at the end of the output but the record says it is at the offset |
| `Packer.StepStartIndependent` | psirm.py:251-261 | one offset's record update and error do not depend on what the file held |
| `Packer.PackTierStartIndependent` | psirm.py:250-261 | neither do a whole tier's |
| `Packer.PackTierLeadingZero` | psirm.py:250-255 | a tier pass into an empty file or one starting with a zero byte leaves it so |
| `Packer.TierPass` | psirm.py:250-262 | one tier's `with open(...)` block: the output extends the initial contents, and every record keeps its length and name |
| `Packer.TierPassPlacement` | psirm.py:250-262 | a successful tier pass whose slots, in offset order, do not overlap and whose nonzero offsets lie past the initial contents puts every replacement image at its offset, with zeros everywhere else it wrote |
| `Packer.PackTierSlot` | psirm.py:251-261 | after a successful tier loop over non-overlapping slots, a nonempty replacement image sits at its key, and the record the key names has the key and the image's length as its position |
| `Packer.TierPassSlot` | psirm.py:245-262 | the same for a tier pass: the last record at a nonzero offset with a nonempty `<tier>/<name>.png` gets that image at the offset and the offset and the image's length as its position |
| `Packer.UnpackRepackTier` | psirm.py:247-261 | extracting, then repacking a tier from the extracted images unchanged: for the last record at its offset and with its name, whose slot lies inside the data file, the slot's bytes are written back at the same offset and the record's offset and size fields read as before |
| `Packer.TierPassRecords` | psirm.py:239-275 | after a successful tier pass, only the last record with each nonzero offset that has a non-empty replacement is updated |
| `Packer.TiersRecords` | psirm.py:239-275 | each record in the written index is the original updated by the low pass, then by the high pass |
| `Packer.Stamp` | psirm.py:220-223 | `fdra` goes into the first two named data files, and nothing else changes |
| `Packer.Repack` | psirm.py:209-286 | a missing index is an IOError and an index whose header or names do not decode a DecodeError, both leaving the folder as it was; on success the index holds the hard-coded names and the records |
| `Packer.RepackIndex` | psirm.py:214-286 | only the two data files and the index can change; on success the index holds the hard-coded names and the records, which keep their count and lengths; on failure the index is left as it was when it is not a data file |
| `Packer.RepackTiers` | psirm.py:250-286 | the same guarantees from the collected offsets on |
| `Packer.RepackHigh` | psirm.py:263-286 | the high pass writes only the high data file; the index is written on success and, on failure, left as it was unless it is the high data file |
| `Packer.RepackWritesIndex` | psirm.py:277-286 | a successful repack writes an index that reads back as a valid header, the four hard-coded names and exactly the updated records, and that decodes as UTF-8 |
| `Packer.RepackFailureKeepsIndex` | psirm.py:209-286 | a failed repack leaves the index as it was, unless the index names itself as a data file |
| `Packer.RepackFrame` | psirm.py:209-286 | a repack touches no file but the two data files the index names and the index; a missing index touches nothing |
| `Packer.RepackLowFailure` | psirm.py:250-286 | a failure in the low tier ends the repack with that error: the high data file, when it is another file, keeps only its stamp, and no index is written unless the index name is one of the data files |
| `Packer.RepackStartIndependent` | psirm.py:209-286 | the contents each tier pass starts from change only the two data files: the error, the records and every other file are the same |
| `Packer.RepackDataFileStart` | psirm.py:220-274 | once the index decodes, each data file ends up holding only its stamp, or a tier pass output that begins with the contents it started from |
| `Packer.PackResourcesLosesStamp` | psirm.py:220-253 | as written, the low data file of a repack that gets past the offsets is empty or starts with a zero byte, so it never starts with `fdra` |
| `Packer.PackResourcesStamped` | psirm.py:220-286 | keeping the stamp changes only the two data files: the error, the records and every other file, the index included, are those of the code as written |
| `Packer.PackResourcesStampedKeepsStamp` | psirm.py:220-253 | with the stamp kept and an index that decodes, each of the two data files always begins with `fdra`, unless it is named like the index |

Behaviours of the code worth noting:

- The header literal `'Photoshop Icon Resource Index 1.0\n'` is 34 bytes, not 35.
- Unpacking stops at the first failed extraction. No exception is caught, so
  failures are not tolerated per record.
- A short read of a data file is not an error. `read(size)` returns fewer
  bytes and those are written (`ReadAt`).
- A PNG larger than its slot is written whole before the MemoryError is
  raised (`WritePng`).
- Only the two data files the index names for tiers 0 and 1 are stamped and
  rebuilt. The data files of tiers 2 and 3 are not created.
- The new index always names the four `PSIcons*.dat` files, whatever the
  original index named.

## Findings

| source | as written | input that shows it | evidently intended | confidence | as-written member | corrected member |
|---|---|---|---|---|---|---|
| psirm.py:220-253 | each data file is stamped with `fdra`, then reopened with `'wb'` for its tier pass, which truncates it; padding to the first offset then starts from byte 0 | an index naming `PSIconsLowRes.dat` and `PSIconsHighRes.dat`, with no records: the low data file ends up empty instead of holding `fdra` | each new data file begins with `fdra`, then the images at their offsets | not executed; high | `Packer.PackResourcesLosesStamp` | `Packer.PackResourcesStampedKeepsStamp` |

The repack is defined once, as `Packer.Repack`. Its parameter is the contents
each tier pass starts from:

- `PackResources` passes the empty sequence, as the code does.
- `PackResourcesStamped` passes `fdra`, as intended.

Every property of `Repack` holds for both. These are `RepackWritesIndex`,
`RepackFrame`, `RepackFailureKeepsIndex`, `RepackLowFailure` and
`RepackDataFileStart`. `PackResourcesStamped` states that the two differ
only in the two data files.

## Left out

- The command-line interface (`cli_run`) and `ensure_path_exists` are left out: they only select and create directories.
- File names are opaque map keys: the extraction tree is keyed by `PngKey(tier, name)` and a folder by file name, and path joins are not modelled. Path aliasing is therefore left out. A name holding `/` or `..`, an absolute name, or a case-insensitive file system can make two distinct keys one file: `PngKey(1, "../Low/a")` is written to `High/../Low/a.png`, the file of `PngKey(0, "a")`. `UnpackLastWins` and `UnpackResourcesLastWins` assume that distinct keys are distinct files.
- Console output is left out. This covers the header warning, which becomes the `headerValid` flag, and the field-change diagnostic of the setters, whose one effect, a possible DecodeError while decoding the record's name, is modelled.
- UTF-8 encoding is left out: names are handled as the bytes they encode to, so `write_string` and `pack_index` take bytes. Decoding is modelled, as a check that gives `DecodeError`; the decoded text itself is not.
- The in-place writes a setter makes before it fails are left out: a failing `SetField` or `SetName` returns the error and no record. Any such failure ends the repack before the index is written, so those partial writes are never saved.
- Files, handles, generators and laziness are left out. The index and the data files are whole byte sequences, and the lazy record generator is a fully read sequence. An error in the index is therefore never reached half-way through the records.
- Directories as file names are not modelled: an empty data file name, which would make `open` fail on the folder itself, reads as an ordinary map key.
- `Metadata.Name` has no contract of its own: it is `read_string` on the first 48 bytes, and `Metadata.SetName` states what it reads back.
- `Packer.PackResources`: the function is the code as written and carries no contract. `PackResourcesLosesStamp` states its loss of the stamp. It covers the low data file only, because a low-tier failure leaves the high data file holding the stamp.
- The `isinstance(metadata, str)` checks are left out: after the four names the generator only yields records, so the ValueError cannot be raised.

=== FILE: extract.dfy ===
/** Unpacking (`extract_resource`, `unpack_resources`): copy each record's
    byte range out of the tier's data file into `<Low|High>/<name>.png`.
    Directories are maps from file names to contents: the folder holding the
    index and its data files, and the extraction tree keyed by (tier, name). */
module Extractor {
  import opened Results
  import opened Primitives
  import opened Metadata
  import opened IndexCodec

  /** A file name, as the bytes of its UTF-8 encoding. */
  type FileName = seq<byte>
  /** The files of one directory. */
  type Folder = map<FileName, seq<byte>>

  /** `<base>/Low/<name>.png` (tier 0) or `<base>/High/<name>.png` (tier 1). */
  datatype PngKey = PngKey(tier: nat, name: seq<byte>)
  type PngTree = map<PngKey, seq<byte>>

  datatype Extracted = Extracted(written: bool, tree: PngTree)

  /** The bytes `read(size)` returns after `seek(offset)`: the range
      [offset, offset + size) of the file, cut short at its end. */
  function ReadAt(data: seq<byte>, offset: nat, size: nat): (r: seq<byte>)
    ensures |r| == if offset >= |data| then 0 else Min(offset + size, |data|) - offset
    ensures forall i :: 0 <= i < |r| ==> r[i] == data[offset + i]
    ensures offset + size <= |data| ==> r == data[offset..offset + size]
  {
    Slice(data, offset, offset + size)
  }

  /** `extract_resource(rtype, resource_files, metadata, base_folder)`. The
      tier is `rtype % 2`; the record's name is decoded to build the output
      path; a record whose size for that tier is 0 is skipped (False,
      nothing written); otherwise the tier's data file is read at the
      record's offset and the bytes replace `<tier>/<name>.png`. */
  function ExtractResource(rtype: int, resourceFiles: seq<FileName>, m: ImageMetadata,
                           folder: Folder, tree: PngTree): (r: Result<Extracted>)
    ensures !NameDecodes(m) ==> r == Err(DecodeError)
    ensures NameDecodes(m) && GetPosition(m, rtype).Err? ==> r == Err(StructError)
    ensures NameDecodes(m) && GetPosition(m, rtype).Ok? && GetPosition(m, rtype).value.1 == 0 ==>
              r == Ok(Extracted(false, tree))
    ensures NameDecodes(m) && GetPosition(m, rtype).Ok? && GetPosition(m, rtype).value.1 != 0 ==>
              (r.Ok? <==> Tier(rtype) < |resourceFiles| && resourceFiles[Tier(rtype)] in folder)
    ensures r.Ok? ==> NameDecodes(m) && GetPosition(m, rtype).Ok?
                      && (r.value.written <==> GetPosition(m, rtype).value.1 != 0)
    ensures r.Ok? && r.value.written ==>
              var (offset, size) := GetPosition(m, rtype).value;
              var key := PngKey(Tier(rtype), Name(m));
              && size != 0
              && r.value.tree.Keys == tree.Keys + {key}
              && (forall k :: k in tree && k != key ==> r.value.tree[k] == tree[k])
              && r.value.tree[key] == ReadAt(folder[resourceFiles[Tier(rtype)]], offset, size)
  {
    var t := Tier(rtype);
    if !NameDecodes(m) then Err(DecodeError)
    else
      var name := Name(m);
      // get_position(rtype % 2) reads the same fields as get_position(rtype)
      var position :- GetPosition(m, rtype);
      var (offset, size) := position;
      if size == 0 then Ok(Extracted(false, tree))
      else if t >= |resourceFiles| then Err(IndexError)
      else if resourceFiles[t] !in folder then Err(IOError)
      else Ok(Extracted(true, tree[PngKey(t, name) := ReadAt(folder[resourceFiles[t]], offset, size)]))
  }

  /** Whether record `m` has an image in tier `t`. */
  ghost predicate HasImage(m: ImageMetadata, t: nat) {
    GetPosition(m, t).Ok? && GetPosition(m, t).value.1 != 0
  }

  /** Some record extracts an image to `key`. */
  ghost predicate Extracts(records: seq<ImageMetadata>, key: PngKey) {
    exists i :: 0 <= i < |records| && key.tier < 2 && HasImage(records[i], key.tier) && Name(records[i]) == key.name
  }

  datatype Unpacked = Unpacked(tree: PngTree, err: Option<Error>)

  /** The loop of `unpack_resources`: both tiers of every record in order.
      The first failure ends the unpacking; what was written before it
      stays. */
  function UnpackRecords(records: seq<ImageMetadata>, resourceFiles: seq<FileName>,
                         folder: Folder, tree: PngTree): (r: Unpacked)
    ensures tree.Keys <= r.tree.Keys
    decreases |records|
  {
    if |records| == 0 then Unpacked(tree, None)
    else
      match ExtractResource(0, resourceFiles, records[0], folder, tree)
      case Err(e) => Unpacked(tree, Some(e))
      case Ok(low) =>
        match ExtractResource(1, resourceFiles, records[0], folder, low.tree)
        case Err(e) => Unpacked(low.tree, Some(e))
        case Ok(high) => UnpackRecords(records[1..], resourceFiles, folder, high.tree)
  }

  /** One extraction touches only the file of its own tier and name, and
      only when the record has an image there. */
  lemma ExtractKeepsOthers(t: nat, resourceFiles: seq<FileName>, m: ImageMetadata,
                           folder: Folder, tree: PngTree, k: PngKey)
    requires t < 2 && ExtractResource(t, resourceFiles, m, folder, tree).Ok?
    requires !(k.tier == t && HasImage(m, t) && Name(m) == k.name)
    ensures var out := ExtractResource(t, resourceFiles, m, folder, tree).value.tree;
            (k in out <==> k in tree) && (k in tree ==> out[k] == tree[k])
  {
    var x := ExtractResource(t, resourceFiles, m, folder, tree).value;
    assert Tier(t) == t;
    if x.written {
      assert k != PngKey(t, Name(m));
    }
  }

  /** No record with an image for `key` means no record holds an image for
      it once the first record is dropped. */
  lemma ExtractsTail(records: seq<ImageMetadata>, key: PngKey)
    requires |records| > 0 && !Extracts(records, key)
    ensures !Extracts(records[1..], key)
    ensures !(key.tier < 2 && HasImage(records[0], key.tier) && Name(records[0]) == key.name)
  {
  }

  /** Unpacking, whether it fails or not, leaves every file no record has an
      image for as it was: not created, not removed, not changed. */
  lemma {:induction false} UnpackFrame(records: seq<ImageMetadata>, resourceFiles: seq<FileName>,
                                       folder: Folder, tree: PngTree, key: PngKey)
    requires !Extracts(records, key)
    ensures var out := UnpackRecords(records, resourceFiles, folder, tree).tree;
            (key in out <==> key in tree) && (key in tree ==> out[key] == tree[key])
    decreases |records|
  {
    if |records| > 0 {
      ExtractsTail(records, key);
      var low := ExtractResource(0, resourceFiles, records[0], folder, tree);
      if low.Ok? {
        ExtractKeepsOthers(0, resourceFiles, records[0], folder, tree, key);
        var high := ExtractResource(1, resourceFiles, records[0], folder, low.value.tree);
        if high.Ok? {
          ExtractKeepsOthers(1, resourceFiles, records[0], folder, low.value.tree, key);
          UnpackFrame(records[1..], resourceFiles, folder, high.value.tree, key);
        }
      }
    }
  }

  /** The first record holds an image for `key` and no later record does. */
  lemma NoLaterImage(records: seq<ImageMetadata>, t: nat)
    requires |records| > 0 && t < 2
    requires forall j :: 0 < j < |records| && HasImage(records[j], t) ==> Name(records[j]) != Name(records[0])
    ensures !Extracts(records[1..], PngKey(t, Name(records[0])))
  {
  }

  /** One step of a successful unpacking: both extractions of the first
      record succeed, and the rest is unpacked into what they produced. */
  lemma UnpackStep(records: seq<ImageMetadata>, resourceFiles: seq<FileName>,
                   folder: Folder, tree: PngTree)
    requires |records| > 0
    requires UnpackRecords(records, resourceFiles, folder, tree).err.None?
    ensures var low := ExtractResource(0, resourceFiles, records[0], folder, tree);
            && low.Ok?
            && var high := ExtractResource(1, resourceFiles, records[0], folder, low.value.tree);
            && high.Ok?
            && UnpackRecords(records, resourceFiles, folder, tree)
               == UnpackRecords(records[1..], resourceFiles, folder, high.value.tree)
  {
  }

  /** A successful extraction of a record with an image in tier `t` puts
      the bytes at the record's position in the tier's data file. */
  lemma ExtractWrites(t: nat, resourceFiles: seq<FileName>, m: ImageMetadata,
                      folder: Folder, tree: PngTree)
    requires t < 2 && ExtractResource(t, resourceFiles, m, folder, tree).Ok? && HasImage(m, t)
    ensures t < |resourceFiles| && resourceFiles[t] in folder
    ensures var out := ExtractResource(t, resourceFiles, m, folder, tree).value.tree;
            var key := PngKey(t, Name(m));
            key in out
            && out[key] == ReadAt(folder[resourceFiles[t]], GetPosition(m, t).value.0, GetPosition(m, t).value.1)
  {
    assert Tier(t) == t;
  }

  /** The low-tier image of the first record, when no later record
      overwrites it: the high-tier extraction and the rest of the records
      leave it alone. */
  lemma FirstRecordWinsLow(records: seq<ImageMetadata>, resourceFiles: seq<FileName>,
                           folder: Folder, tree: PngTree, t: nat)
    requires UnpackRecords(records, resourceFiles, folder, tree).err.None? && t == 0
    requires |records| > 0 && HasImage(records[0], t)
    requires forall j :: 0 < j < |records| && HasImage(records[j], t) ==> Name(records[j]) != Name(records[0])
    ensures t < |resourceFiles| && resourceFiles[t] in folder
    ensures var out := UnpackRecords(records, resourceFiles, folder, tree).tree;
            var key := PngKey(t, Name(records[0]));
            var position := GetPosition(records[0], t).value;
            key in out && out[key] == ReadAt(folder[resourceFiles[t]], position.0, position.1)
  {
    UnpackStep(records, resourceFiles, folder, tree);
    var low := ExtractResource(0, resourceFiles, records[0], folder, tree).value;
    var high := ExtractResource(1, resourceFiles, records[0], folder, low.tree).value;
    var key := PngKey(0, Name(records[0]));
    ExtractWrites(0, resourceFiles, records[0], folder, tree);
    ExtractKeepsOthers(1, resourceFiles, records[0], folder, low.tree, key);
    NoLaterImage(records, 0);
    UnpackFrame(records[1..], resourceFiles, folder, high.tree, key);
  }

  /** The high-tier image of the first record, when no later record
      overwrites it. */
  lemma FirstRecordWinsHigh(records: seq<ImageMetadata>, resourceFiles: seq<FileName>,
                            folder: Folder, tree: PngTree, t: nat)
    requires UnpackRecords(records, resourceFiles, folder, tree).err.None? && t == 1
    requires |records| > 0 && HasImage(records[0], t)
    requires forall j :: 0 < j < |records| && HasImage(records[j], t) ==> Name(records[j]) != Name(records[0])
    ensures t < |resourceFiles| && resourceFiles[t] in folder
    ensures var out := UnpackRecords(records, resourceFiles, folder, tree).tree;
            var key := PngKey(t, Name(records[0]));
            var position := GetPosition(records[0], t).value;
            key in out && out[key] == ReadAt(folder[resourceFiles[t]], position.0, position.1)
  {
    UnpackStep(records, resourceFiles, folder, tree);
    var low := ExtractResource(0, resourceFiles, records[0], folder, tree).value;
    var high := ExtractResource(1, resourceFiles, records[0], folder, low.tree).value;
    ExtractWrites(1, resourceFiles, records[0], folder, low.tree);
    NoLaterImage(records, 1);
    UnpackFrame(records[1..], resourceFiles, folder, high.tree, PngKey(1, Name(records[0])));
  }

  /** The image of the first record in either tier, when no later record
      overwrites it. */
  lemma FirstRecordWins(records: seq<ImageMetadata>, resourceFiles: seq<FileName>,
                        folder: Folder, tree: PngTree, t: nat)
    requires UnpackRecords(records, resourceFiles, folder, tree).err.None?
    requires |records| > 0 && t < 2 && HasImage(records[0], t)
    requires forall j :: 0 < j < |records| && HasImage(records[j], t) ==> Name(records[j]) != Name(records[0])
    ensures t < |resourceFiles| && resourceFiles[t] in folder
    ensures var out := UnpackRecords(records, resourceFiles, folder, tree).tree;
            var key := PngKey(t, Name(records[0]));
            var position := GetPosition(records[0], t).value;
            key in out && out[key] == ReadAt(folder[resourceFiles[t]], position.0, position.1)
  {
    if t == 0 {
      FirstRecordWinsLow(records, resourceFiles, folder, tree, t);
    } else {
      FirstRecordWinsHigh(records, resourceFiles, folder, tree, t);
    }
  }

  /** After a successful unpacking, each image is in the file the last
      record holding an image of that tier and name extracted: bytes
      [offset, offset + size) of the tier's data file, which exists. */
  lemma {:induction false} UnpackLastWins(records: seq<ImageMetadata>, resourceFiles: seq<FileName>,
                                          folder: Folder, tree: PngTree, i: nat, t: nat)
    requires UnpackRecords(records, resourceFiles, folder, tree).err.None?
    requires i < |records| && t < 2 && HasImage(records[i], t)
    requires forall j :: i < j < |records| && HasImage(records[j], t) ==> Name(records[j]) != Name(records[i])
    ensures t < |resourceFiles| && resourceFiles[t] in folder
    ensures var out := UnpackRecords(records, resourceFiles, folder, tree).tree;
            var key := PngKey(t, Name(records[i]));
            var position := GetPosition(records[i], t).value;
            key in out && out[key] == ReadAt(folder[resourceFiles[t]], position.0, position.1)
    decreases |records|
  {
    if i == 0 {
      FirstRecordWins(records, resourceFiles, folder, tree, t);
    } else {
      UnpackStep(records, resourceFiles, folder, tree);
      var low := ExtractResource(0, resourceFiles, records[0], folder, tree).value;
      var high := ExtractResource(1, resourceFiles, records[0], folder, low.tree).value;
      forall j | i - 1 < j < |records[1..]| && HasImage(records[1..][j], t)
        ensures Name(records[1..][j]) != Name(records[1..][i - 1])
      {
        assert records[1..][j] == records[j + 1];
      }
      UnpackLastWins(records[1..], resourceFiles, folder, high.tree, i - 1, t);
    }
  }

  /** When the slot of that last record lies inside the data file, its
      image is exactly the slot's bytes. */
  lemma UnpackedSlot(records: seq<ImageMetadata>, resourceFiles: seq<FileName>,
                     folder: Folder, tree: PngTree, i: nat, t: nat) returns (png: seq<byte>)
    requires UnpackRecords(records, resourceFiles, folder, tree).err.None?
    requires i < |records| && t < 2 && HasImage(records[i], t)
    requires forall j :: i < j < |records| && HasImage(records[j], t) ==> Name(records[j]) != Name(records[i])
    requires t < |resourceFiles| && resourceFiles[t] in folder ==>
               var position := GetPosition(records[i], t).value;
               position.0 + position.1 <= |folder[resourceFiles[t]]|
    ensures t < |resourceFiles| && resourceFiles[t] in folder
    ensures var out := UnpackRecords(records, resourceFiles, folder, tree).tree;
            var key := PngKey(t, Name(records[i]));
            var position := GetPosition(records[i], t).value;
            && png == folder[resourceFiles[t]][position.0..position.0 + position.1]
            && |png| == position.1
            && key in out && out[key] == png
  {
    UnpackLastWins(records, resourceFiles, folder, tree, i, t);
    png := UnpackRecords(records, resourceFiles, folder, tree).tree[PngKey(t, Name(records[i]))];
  }

  /** `unpack_resources`: decode the index (a missing index file is an
      IOError, a header or data file name that is not UTF-8 a DecodeError,
      both raised before anything is extracted) and extract every record,
      reading the data files named in the index from the index's folder. */
  function UnpackResources(index: Option<seq<byte>>, folder: Folder, tree: PngTree): (r: Unpacked)
    ensures index.None? ==> r.err == Some(IOError) && r.tree == tree
    ensures index.Some? && !IndexDecodes(index.value) ==> r.err == Some(DecodeError) && r.tree == tree
    ensures index.Some? ==>
              forall key :: !Extracts(UnpackIndex(index.value).records, key) ==>
                (key in r.tree <==> key in tree) && (key in tree ==> r.tree[key] == tree[key])
  {
    match index
    case None => Unpacked(tree, Some(IOError))
    case Some(f) =>
      if !IndexDecodes(f) then Unpacked(tree, Some(DecodeError))
      else
        var idx := UnpackIndex(f);
        assert forall key :: !Extracts(idx.records, key) ==>
                 var out := UnpackRecords(idx.records, idx.names, folder, tree).tree;
                 (key in out <==> key in tree) && (key in tree ==> out[key] == tree[key]) by {
          forall key | !Extracts(idx.records, key)
            ensures var out := UnpackRecords(idx.records, idx.names, folder, tree).tree;
                    (key in out <==> key in tree) && (key in tree ==> out[key] == tree[key])
          {
            UnpackFrame(idx.records, idx.names, folder, tree, key);
          }
        }
        UnpackRecords(idx.records, idx.names, folder, tree)
  }

  /** After a successful unpacking of an index, each record with an image
      in a tier, and no later record with an image of the same tier and
      name, has its bytes in `<tier>/<name>.png`: the range the record gives
      of the data file the index names for that tier. */
  lemma UnpackResourcesLastWins(index: Option<seq<byte>>, folder: Folder, tree: PngTree, i: nat, t: nat)
    requires UnpackResources(index, folder, tree).err.None?
    requires index.Some? ==> var records := UnpackIndex(index.value).records;
               && i < |records| && t < 2 && HasImage(records[i], t)
               && forall j :: i < j < |records| && HasImage(records[j], t) ==> Name(records[j]) != Name(records[i])
    ensures index.Some?
    ensures var u := UnpackIndex(index.value);
            var m := u.records[i];
            var out := UnpackResources(index, folder, tree).tree;
            && u.names[t] in folder
            && PngKey(t, Name(m)) in out
            && out[PngKey(t, Name(m))]
               == ReadAt(folder[u.names[t]], GetPosition(m, t).value.0, GetPosition(m, t).value.1)
  {
    var u := UnpackIndex(index.value);
    UnpackLastWins(u.records, u.names, folder, tree, i, t);
  }
}

=== FILE: index.dfy ===
/** The index file (`IconResources.idx`): a header line, four 128-byte slots
    naming the companion data files, then the metadata records back to back
    until the end of the file. */
module IndexCodec {
  import opened Results
  import opened Primitives
  import opened Metadata

  const NewLine: byte := 10

  /** The bytes of an ASCII string. */
  function Ascii(s: string): (b: seq<byte>)
    requires forall c :: c in s ==> c as int < 0x100
    ensures |b| == |s|
    ensures forall i :: 0 <= i < |s| ==> b[i] == s[i] as int
  {
    seq(|s|, i requires 0 <= i < |s| => AsciiByte((assert s[i] in s; s[i])))
  }

  function AsciiByte(c: char): byte
    requires c as int < 0x100
  {
    c as int
  }

  /** `IDX_HEADER`, newline included. Its length is that of the literal. */
  const IdxHeaderText: string := "Photoshop Icon Resource Index 1.0"
  const IdxHeader: seq<byte> := Ascii(IdxHeaderText) + [NewLine]

  /** `DATAFILE_NAME_LENGTH` */
  const DataFileNameLength: nat := 128
  const SlotCount: nat := 4

  /** The header contains exactly one newline, its last byte. */
  lemma HeaderHasOneNewLine()
    ensures |IdxHeader| > 0 && IdxHeader[|IdxHeader| - 1] == NewLine
    ensures forall i :: 0 <= i < |IdxHeader| - 1 ==> IdxHeader[i] != NewLine
  {
    assert '\n' !in IdxHeaderText;
    assert forall i :: 0 <= i < |IdxHeaderText| ==> IdxHeaderText[i] in IdxHeaderText;
  }

  /** `file.readline()`: everything up to and including the first newline,
      or the whole input when it has none. */
  function ReadLine(f: seq<byte>): (line: seq<byte>)
    ensures line <= f
    ensures forall i :: 0 <= i < |line| - 1 ==> line[i] != NewLine
    ensures |line| == |f| || (|line| > 0 && line[|line| - 1] == NewLine)
  {
    if |f| == 0 then []
    else if f[0] == NewLine then [f[0]]
    else [f[0]] + ReadLine(f[1..])
  }

  /** The header line is read back whole, whatever follows it. */
  lemma ReadLineHeader(rest: seq<byte>)
    ensures ReadLine(IdxHeader + rest) == IdxHeader
  {
    HeaderHasOneNewLine();
    var f := IdxHeader + rest;
    var line := ReadLine(f);
    assert f[..|IdxHeader|] == IdxHeader;
    assert |line| == |IdxHeader|;
  }

  /** The records written back to back (`pack_metadata` for each). */
  function Concat(records: seq<ImageMetadata>): (f: seq<byte>)
    ensures |records| > 0 ==> records[0].data <= f
    ensures (forall i :: 0 <= i < |records| ==> |records[i].data| == BlockLength) ==>
              |f| == BlockLength * |records|
  {
    if |records| == 0 then [] else records[0].data + Concat(records[1..])
  }

  /** The shape of a record sequence read from a file: no record is empty and
      all but the last are full 368-byte blocks. */
  ghost predicate Chunked(records: seq<ImageMetadata>) {
    && (forall i :: 0 <= i < |records| ==> 0 < |records[i].data| <= BlockLength)
    && (forall i :: 0 <= i < |records| - 1 ==> |records[i].data| == BlockLength)
  }

  /** The record loop of `unpack_index`: `read(368)` until a read comes back
      empty, so a short last block still becomes a (short) record. */
  function Records(tail: seq<byte>): (records: seq<ImageMetadata>)
    ensures Concat(records) == tail
    ensures Chunked(records)
    decreases |tail|
  {
    if |tail| == 0 then []
    else
      var n := Min(BlockLength, |tail|);
      var rest := Records(tail[n..]);
      assert Concat([ImageMetadata(tail[..n])] + rest) == tail by {
        assert ([ImageMetadata(tail[..n])] + rest)[1..] == rest;
      }
      [ImageMetadata(tail[..n])] + rest
  }

  /** Splitting the concatenation of a chunked record sequence gives that
      sequence back: with Records, Concat is a bijection between byte
      strings and chunked record sequences. */
  lemma {:induction false} RecordsOfConcat(records: seq<ImageMetadata>)
    requires Chunked(records)
    ensures Records(Concat(records)) == records
    decreases |records|
  {
    if |records| > 0 {
      var tail := Concat(records);
      var r0 := records[0];
      assert tail == r0.data + Concat(records[1..]);
      var n := Min(BlockLength, |tail|);
      assert n == |r0.data| by {
        if |records| > 1 {
          assert |r0.data| == BlockLength;
        } else {
          assert Concat(records[1..]) == [];
        }
      }
      assert tail[..n] == r0.data;
      assert tail[n..] == Concat(records[1..]);
      RecordsOfConcat(records[1..]);
      assert records == [r0] + records[1..];
    }
  }

  datatype Index = Index(headerValid: bool, names: seq<seq<byte>>, records: seq<ImageMetadata>)

  /** `unpack_index`, fully materialised: the header line (a mismatch is only
      reported, as `headerValid == false`), the four data file names each
      read from a 128-byte slot, then the records. Slots and records past the
      end of the file come out short or empty, as Python reads do. */
  function UnpackIndex(f: seq<byte>): (idx: Index)
    ensures |idx.names| == SlotCount
    ensures idx.headerValid <==> ReadLine(f) == IdxHeader
    ensures Concat(idx.records) == if |f| <= |ReadLine(f)| + SlotCount * DataFileNameLength then []
                                   else f[|ReadLine(f)| + SlotCount * DataFileNameLength..]
  {
    var line := ReadLine(f);
    var body := f[|line|..];
    var names := seq(SlotCount, i requires 0 <= i < SlotCount =>
                       ReadString(Slice(body, DataFileNameLength * i, DataFileNameLength * (i + 1))));
    var skip := SlotCount * DataFileNameLength;
    Index(line == IdxHeader, names, Records(if |body| <= skip then [] else body[skip..]))
  }

  /** The decoding steps of `unpack_index`: the header line and each of the
      four names are decoded as UTF-8. A failure raises while the caller
      takes the four names, before it does anything else. */
  predicate IndexDecodes(f: seq<byte>) {
    Utf8(ReadLine(f)) && forall i :: 0 <= i < SlotCount ==> Utf8(UnpackIndex(f).names[i])
  }

  /** One data file name slot as `pack_index` writes it:
      `write_string(name, 127) + b'\n'`. */
  function Slot(name: seq<byte>): (s: seq<byte>)
    ensures |name| <= DataFileNameLength - 1 ==> |s| == DataFileNameLength
    ensures |s| > 0 && s[|s| - 1] == NewLine
  {
    WriteString(name, DataFileNameLength - 1) + [NewLine]
  }

  /** The four slots in order. */
  function Slots(files: seq<seq<byte>>): seq<byte>
    requires |files| == SlotCount
  {
    Slot(files[0]) + Slot(files[1]) + Slot(files[2]) + Slot(files[3])
  }

  /** `pack_index`: header, the four slots, the records. */
  function PackIndex(files: seq<seq<byte>>, records: seq<ImageMetadata>): (f: seq<byte>)
    requires |files| == SlotCount
    ensures IdxHeader <= f
    ensures |Concat(records)| <= |f| && f[|f| - |Concat(records)|..] == Concat(records)
  {
    IdxHeader + Slots(files) + Concat(records)
  }

  /** Slot `i` of names that fit lies at `128 * i`. */
  lemma SlotsLayout(files: seq<seq<byte>>)
    requires |files| == SlotCount
    requires forall i :: 0 <= i < SlotCount ==> |files[i]| <= DataFileNameLength - 1
    ensures |Slots(files)| == SlotCount * DataFileNameLength
    ensures forall i :: 0 <= i < SlotCount ==>
              Slots(files)[DataFileNameLength * i..DataFileNameLength * (i + 1)] == Slot(files[i])
  {
    var L := DataFileNameLength;
    var s := Slots(files);
    assert s[..L] == Slot(files[0]);
    assert s[L..2 * L] == Slot(files[1]);
    assert s[2 * L..3 * L] == Slot(files[2]);
    assert s[3 * L..4 * L] == Slot(files[3]);
  }

  /** Where the parts of a packed index lie when every name fits its slot. */
  lemma PackIndexLayout(files: seq<seq<byte>>, records: seq<ImageMetadata>)
    requires |files| == SlotCount
    requires forall i :: 0 <= i < SlotCount ==> |files[i]| <= DataFileNameLength - 1
    ensures var f := PackIndex(files, records);
            var h := |IdxHeader|;
            && |f| == h + SlotCount * DataFileNameLength + |Concat(records)|
            && f[..h] == IdxHeader
            && (forall i :: 0 <= i < SlotCount ==>
                  f[h + DataFileNameLength * i..h + DataFileNameLength * (i + 1)] == Slot(files[i]))
            && f[h + SlotCount * DataFileNameLength..] == Concat(records)
  {
    var f := PackIndex(files, records);
    var h := |IdxHeader|;
    var L := DataFileNameLength;
    var s := Slots(files);
    SlotsLayout(files);
    assert f[h..h + SlotCount * L] == s;
    forall i | 0 <= i < SlotCount
      ensures f[h + L * i..h + L * (i + 1)] == Slot(files[i])
    {
      assert f[h + L * i..h + L * (i + 1)] == s[L * i..L * (i + 1)];
    }
  }

  /** A packed index starts with the header line and holds all four slots. */
  lemma PackedHeaderRead(files: seq<seq<byte>>, records: seq<ImageMetadata>)
    requires |files| == SlotCount
    requires forall i :: 0 <= i < SlotCount ==> |files[i]| <= DataFileNameLength - 1
    ensures ReadLine(PackIndex(files, records)) == IdxHeader
    ensures |PackIndex(files, records)| >= |IdxHeader| + SlotCount * DataFileNameLength
  {
    var f := PackIndex(files, records);
    PackIndexLayout(files, records);
    ReadLineHeader(f[|IdxHeader|..]);
    assert IdxHeader + f[|IdxHeader|..] == f;
  }

  /** Each name of a packed index reads back from its slot. */
  lemma PackedNamesRead(files: seq<seq<byte>>, records: seq<ImageMetadata>)
    requires |files| == SlotCount
    requires forall i :: 0 <= i < SlotCount ==> |files[i]| < DataFileNameLength - 1 && Nul !in files[i]
    ensures UnpackIndex(PackIndex(files, records)).names == files
  {
    var f := PackIndex(files, records);
    PackedHeaderRead(files, records);
    PackIndexLayout(files, records);
    var u := UnpackIndex(f);
    forall i | 0 <= i < SlotCount
      ensures u.names[i] == files[i]
    {
      UnpackedName(f, i);
      ReadWriteString(files[i], DataFileNameLength - 1, [NewLine]);
    }
  }

  /** Decoding a packed index gives back the header, the four names (each
      shorter than its 127-byte field and free of NUL) and, when the records
      have the shape a read produces (in particular when all are 368 bytes),
      the records. */
  lemma UnpackPackIndex(files: seq<seq<byte>>, records: seq<ImageMetadata>)
    requires |files| == SlotCount
    requires forall i :: 0 <= i < SlotCount ==> |files[i]| < DataFileNameLength - 1 && Nul !in files[i]
    ensures UnpackIndex(PackIndex(files, records)).headerValid
    ensures UnpackIndex(PackIndex(files, records)).names == files
    ensures Chunked(records) ==> UnpackIndex(PackIndex(files, records)).records == records
  {
    var f := PackIndex(files, records);
    PackedHeaderRead(files, records);
    PackedNamesRead(files, records);
    PackIndexLayout(files, records);
    UnpackedHeaderAndRecords(f);
    if Chunked(records) {
      RecordsOfConcat(records);
    }
  }

  /** The `i`-th 128-byte slot after a header line as long as the
      expected one. */
  function SlotBytes(f: seq<byte>, i: nat): seq<byte>
    requires i < SlotCount && |f| >= |IdxHeader| + SlotCount * DataFileNameLength
  {
    f[|IdxHeader| + DataFileNameLength * i..|IdxHeader| + DataFileNameLength * (i + 1)]
  }

  /** A packed index whose names are well-formed UTF-8 decodes: the header
      literal is ASCII and each name reads back from its slot. */
  lemma PackedIndexDecodes(files: seq<seq<byte>>, records: seq<ImageMetadata>)
    requires |files| == SlotCount
    requires forall i :: 0 <= i < SlotCount ==> |files[i]| < DataFileNameLength - 1 && Nul !in files[i]
    requires forall i :: 0 <= i < SlotCount ==> Utf8(files[i])
    ensures IndexDecodes(PackIndex(files, records))
  {
    var f := PackIndex(files, records);
    PackedHeaderRead(files, records);
    PackedNamesRead(files, records);
    HeaderIsUtf8();
    assert ReadLine(f) == IdxHeader && UnpackIndex(f).names == files;
  }

  /** The header literal is ASCII, so it decodes. */
  lemma HeaderIsUtf8()
    ensures Utf8(IdxHeader)
  {
    forall i | 0 <= i < |IdxHeader|
      ensures IdxHeader[i] < 0x80
    {
      if i < |IdxHeaderText| {
        assert IdxHeaderText[i] in IdxHeaderText;
      }
    }
    AsciiIsUtf8(IdxHeader);
  }

  /** A slot exactly as `pack_index` would write it for the name it holds:
      128 bytes, the name, NUL padding up to byte 127, a newline. */
  ghost predicate CanonicalSlot(s: seq<byte>) {
    var name := ReadString(s);
    && |name| < DataFileNameLength - 1
    && s == name + Zeros(DataFileNameLength - 1 - |name|) + [NewLine]
  }

  lemma CanonicalSlotIsSlot(s: seq<byte>)
    requires CanonicalSlot(s)
    ensures Slot(ReadString(s)) == s
  {
  }

  /** Decoding a well-formed index and encoding what was decoded reproduces
      the file byte for byte: the header is the expected line and every slot
      is canonical. */
  lemma PackUnpackIndex(f: seq<byte>)
    requires ReadLine(f) == IdxHeader
    requires |f| >= |IdxHeader| + SlotCount * DataFileNameLength
    requires forall i :: 0 <= i < SlotCount ==>
               CanonicalSlot(SlotBytes(f, i))
    ensures PackIndex(UnpackIndex(f).names, UnpackIndex(f).records) == f
  {
    var u := UnpackIndex(f);
    var h := |IdxHeader|;
    var L := DataFileNameLength;
    CanonicalNames(f);
    UnpackedHeaderAndRecords(f);
    AssembleIndex(f, u.names, u.records);
  }

  lemma UnpackedHeaderAndRecords(f: seq<byte>)
    requires ReadLine(f) == IdxHeader
    requires |f| >= |IdxHeader| + SlotCount * DataFileNameLength
    ensures f[..|IdxHeader|] == IdxHeader
    ensures f[|IdxHeader| + SlotCount * DataFileNameLength..] == Concat(UnpackIndex(f).records)
  {
  }

  lemma CanonicalName(f: seq<byte>, i: nat)
    requires ReadLine(f) == IdxHeader
    requires |f| >= |IdxHeader| + SlotCount * DataFileNameLength
    requires i < SlotCount
    requires CanonicalSlot(SlotBytes(f, i))
    ensures Slot(UnpackIndex(f).names[i]) == SlotBytes(f, i)
  {
    UnpackedName(f, i);
    CanonicalSlotIsSlot(SlotBytes(f, i));
  }

  lemma CanonicalNames(f: seq<byte>)
    requires ReadLine(f) == IdxHeader
    requires |f| >= |IdxHeader| + SlotCount * DataFileNameLength
    requires forall i :: 0 <= i < SlotCount ==>
               CanonicalSlot(SlotBytes(f, i))
    ensures forall i :: 0 <= i < SlotCount ==>
              Slot(UnpackIndex(f).names[i]) == SlotBytes(f, i)
  {
    forall i | 0 <= i < SlotCount
      ensures Slot(UnpackIndex(f).names[i]) ==
              SlotBytes(f, i)
    {
      CanonicalName(f, i);
    }
  }

  /** A file cut at the slot boundaries into the header, four slots and the
      records is the packing of those names and records. */
  lemma AssembleIndex(f: seq<byte>, names: seq<seq<byte>>, records: seq<ImageMetadata>)
    requires |names| == SlotCount
    requires |f| >= |IdxHeader| + SlotCount * DataFileNameLength
    requires f[..|IdxHeader|] == IdxHeader
    requires forall i :: 0 <= i < SlotCount ==>
               Slot(names[i]) == SlotBytes(f, i)
    requires f[|IdxHeader| + SlotCount * DataFileNameLength..] == Concat(records)
    ensures PackIndex(names, records) == f
  {
    var h := |IdxHeader|;
    var L := DataFileNameLength;
    var g := f[h..h + SlotCount * L];
    forall i | 0 <= i < SlotCount
      ensures g[L * i..L * (i + 1)] == Slot(names[i])
    {
      var lo, hi := L * i, L * (i + 1);
      assert lo <= hi <= SlotCount * L;
      SliceOfSlice(f, h, h + SlotCount * L, lo, hi);
    }
    SlotsOfSlices(g, names);
    assert f == f[..h] + g + f[h + SlotCount * L..];
  }

  /** The i-th decoded name is the string in the i-th slot after the header
      line. */
  lemma UnpackedName(f: seq<byte>, i: nat)
    requires ReadLine(f) == IdxHeader
    requires i < SlotCount
    requires |f| >= |IdxHeader| + SlotCount * DataFileNameLength
    ensures UnpackIndex(f).names[i] == ReadString(SlotBytes(f, i))
  {
    var h := |IdxHeader|;
    var L := DataFileNameLength;
    var lo, hi := L * i, L * (i + 1);
    assert lo <= hi <= SlotCount * L;
    assert |ReadLine(f)| == h;
    assert UnpackIndex(f).names[i] == ReadString(Slice(f[h..], lo, hi));
    SliceOfSuffix(f, h, lo, hi);
  }

  lemma SliceOfSuffix(f: seq<byte>, h: nat, lo: nat, hi: nat)
    requires lo <= hi && h + hi <= |f|
    ensures Slice(f[h..], lo, hi) == f[h + lo..h + hi]
  {
  }

  lemma SliceOfSlice(f: seq<byte>, a: nat, b: nat, lo: nat, hi: nat)
    requires a <= b <= |f| && lo <= hi <= b - a
    ensures f[a..b][lo..hi] == f[a + lo..a + hi]
  {
    assert |f[a..b][lo..hi]| == hi - lo;
    forall k | 0 <= k < hi - lo
      ensures f[a..b][lo..hi][k] == f[a + lo..a + hi][k]
    {
      assert f[a..b][lo..hi][k] == f[a..b][lo + k] == f[a + lo + k];
    }
  }

  /** Four slot-sized pieces that are the slots of `names` make up Slots(names). */
  lemma SlotsOfSlices(g: seq<byte>, names: seq<seq<byte>>)
    requires |names| == SlotCount && |g| == SlotCount * DataFileNameLength
    requires forall i :: 0 <= i < SlotCount ==>
               g[DataFileNameLength * i..DataFileNameLength * (i + 1)] == Slot(names[i])
    ensures Slots(names) == g
  {
    var L := DataFileNameLength;
    assert g == g[..L] + g[L..2 * L] + g[2 * L..3 * L] + g[3 * L..];
    assert g[..L] == g[L * 0..L * 1] && g[3 * L..] == g[L * 3..L * 4];
  }
}

=== FILE: metadata.dfy ===
/** The image metadata record (`ImageMetadata`): a byte buffer, 368 bytes when
    read from a well-formed index, holding a NUL-terminated name in its first
    48 bytes and twelve little-endian u32 fields at fixed offsets. Every
    other byte is opaque and is carried through untouched. */
module Metadata {
  import opened Results
  import opened Primitives

  /** `IMAGE_DATA_BLOCK_LENGTH` */
  const BlockLength: nat := 368
  /** Width of the name field at the start of the record. */
  const NameLength: nat := 48

  datatype Field =
    | WidthLow | WidthHigh | LengthLow | LengthHigh
    | OffLow | OffLowOld | OffHigh | OffHighOld
    | SizeLow | SizeLowOld | SizeHigh | SizeHighOld

  /** Byte offset of each u32 field within the record. */
  function FieldOffset(f: Field): nat {
    match f
    case WidthLow => 48
    case WidthHigh => 52
    case LengthLow => 64
    case LengthHigh => 68
    case OffLow => 112
    case OffLowOld => 136
    case OffHigh => 144
    case OffHighOld => 168
    case SizeLow => 240
    case SizeLowOld => 264
    case SizeHigh => 272
    case SizeHighOld => 296
  }

  /** Byte `i` of the record belongs to field `f`. */
  predicate InField(i: int, f: Field) {
    FieldOffset(f) <= i < FieldOffset(f) + 4
  }

  datatype ImageMetadata = ImageMetadata(data: seq<byte>)

  /** Every field lies after the name and inside a full record, and no two
      fields share a byte. */
  lemma FieldsApart(f: Field, g: Field)
    ensures NameLength <= FieldOffset(f) && FieldOffset(f) + 4 <= BlockLength
    ensures f != g ==> FieldOffset(f) + 4 <= FieldOffset(g) || FieldOffset(g) + 4 <= FieldOffset(f)
  {
  }

  /** The `name` property: the string in the first 48 bytes (of a shorter
      buffer, in all of it). */
  function Name(m: ImageMetadata): seq<byte> {
    ReadString(Slice(m.data, 0, NameLength))
  }

  /** The `name` property does not raise: the bytes before the first NUL
      of the name field are well-formed UTF-8. */
  predicate NameDecodes(m: ImageMetadata) {
    Utf8(Name(m))
  }

  /** The getter of an integer field: `read_int(data[offset:offset+4])`,
      which fails when the buffer is too short to hold the field. */
  function GetField(m: ImageMetadata, f: Field): (r: Result<nat>)
    ensures r.Ok? <==> FieldOffset(f) + 4 <= |m.data|
    ensures r.Ok? ==> r.value < TwoTo32
    ensures r.Ok? ==> WriteInt(r.value) == Ok(m.data[FieldOffset(f)..FieldOffset(f) + 4])
  {
    var b := Slice(m.data, FieldOffset(f), FieldOffset(f) + 4);
    if |b| == 4 then
      WriteReadInt(b);
      assert b == m.data[FieldOffset(f)..FieldOffset(f) + 4];
      ReadInt(b)
    else
      ReadInt(b)
  }

  /** The setter of an integer field. It first reads the old value, so a
      buffer too short for the field fails; when the value changes, the
      change diagnostic formats the record's name, which must decode; then
      it packs the new value, which must fit in a u32, and overwrites the
      field's four bytes in place. */
  function SetField(m: ImageMetadata, f: Field, v: int): (r: Result<ImageMetadata>)
    ensures r.Ok? <==> && FieldOffset(f) + 4 <= |m.data| && 0 <= v < TwoTo32
                       && (NameDecodes(m) || GetField(m, f) == Ok(v))
    ensures FieldOffset(f) + 4 <= |m.data| && GetField(m, f) != Ok(v) && !NameDecodes(m) ==>
              r == Err(DecodeError)
    ensures r.Ok? ==> |r.value.data| == |m.data|
    ensures r.Ok? ==> forall i :: 0 <= i < |m.data| && !InField(i, f) ==> r.value.data[i] == m.data[i]
    ensures r.Ok? ==> GetField(r.value, f) == Ok(v)
  {
    var current :- GetField(m, f);
    if current != v && !NameDecodes(m) then Err(DecodeError)
    else
      var bytes :- WriteInt(v);
      var o := FieldOffset(f);
      var data := m.data[..o] + bytes + m.data[o + 4..];
      ReadWriteInt(v);
      assert data[o..o + 4] == bytes;
      Ok(ImageMetadata(data))
  }

  /** Two buffers that agree outside the four bytes at `of` agree on the
      four bytes at any `og` apart from them, and on the name field. */
  lemma SliceFrame(a: seq<byte>, b: seq<byte>, of: nat, og: nat)
    requires |a| == |b|
    requires forall i :: 0 <= i < |a| && !(of <= i < of + 4) ==> a[i] == b[i]
    requires of + 4 <= og || og + 4 <= of
    requires NameLength <= of
    ensures Slice(a, og, og + 4) == Slice(b, og, og + 4)
    ensures Slice(a, 0, NameLength) == Slice(b, 0, NameLength)
  {
  }

  /** Setting one field leaves every other field, and the name, reading
      back exactly as before. */
  lemma SetFieldFrame(m: ImageMetadata, f: Field, g: Field, v: int)
    requires SetField(m, f, v).Ok?
    requires f != g
    ensures GetField(SetField(m, f, v).value, g) == GetField(m, g)
    ensures Name(SetField(m, f, v).value) == Name(m)
  {
    var m' := SetField(m, f, v).value;
    FieldsApart(f, g);
    SliceFrame(m'.data, m.data, FieldOffset(f), FieldOffset(g));
  }

  /** The name setter: `write_string(value, 48)` copied over the start of
      the buffer. A name longer than 48 bytes is written with its one NUL and
      runs into the fields that follow; a buffer too short for what is written
      fails with an index error. */
  function SetName(m: ImageMetadata, value: seq<byte>): (r: Result<ImageMetadata>)
    ensures r.Ok? <==> |value| <= NameLength <= |m.data| || NameLength < |value| < |m.data|
    ensures r.Ok? ==> |r.value.data| == |m.data|
    ensures r.Ok? && |value| <= NameLength ==> forall f :: GetField(r.value, f) == GetField(m, f)
    ensures r.Ok? && |value| <= NameLength && Nul !in value ==> Name(r.value) == value
    ensures r.Ok? ==> var w := WriteString(value, NameLength);
                      && r.value.data[..|w|] == w
                      && forall i :: |w| <= i < |m.data| ==> r.value.data[i] == m.data[i]
  {
    var w := WriteString(value, NameLength);
    if |w| > |m.data| then Err(IndexError)
    else
      var m' := ImageMetadata(w + m.data[|w|..]);
      if |value| <= NameLength then
        assert Slice(m'.data, 0, NameLength) == w;
        assert Nul !in value ==> ReadString(w) == value by {
          if Nul !in value {
            ReadWriteString(value, NameLength, []);
            assert w + [] == w;
          }
        }
        assert forall f :: GetField(m', f) == GetField(m, f) by {
          forall f: Field ensures GetField(m', f) == GetField(m, f) {
            FieldsApart(f, f);
            var o := FieldOffset(f);
            if o + 4 <= |m.data| {
              assert |w| == NameLength <= o;
              assert m'.data[o..o + 4] == m.data[o..o + 4];
            }
          }
        }
        Ok(m')
      else
        Ok(m')
  }

  /** `('low', 'high')[rtype % 2]`: Python's `%` by a positive divisor agrees
      with Dafny's on negative operands too, so every integer selects a tier. */
  function Tier(rtype: int): nat {
    rtype % 2
  }

  function WidthField(rtype: int): Field {
    if Tier(rtype) == 0 then WidthLow else WidthHigh
  }

  function LengthField(rtype: int): Field {
    if Tier(rtype) == 0 then LengthLow else LengthHigh
  }

  function OffField(rtype: int): Field {
    if Tier(rtype) == 0 then OffLow else OffHigh
  }

  function SizeField(rtype: int): Field {
    if Tier(rtype) == 0 then SizeLow else SizeHigh
  }

  /** Tiers `t` and `t + 2` address the same four fields. */
  lemma TierParity(rtype: int)
    ensures WidthField(rtype) == WidthField(rtype + 2) && LengthField(rtype) == LengthField(rtype + 2)
    ensures OffField(rtype) == OffField(rtype + 2) && SizeField(rtype) == SizeField(rtype + 2)
  {
  }

  /** Field `f`, then field `g` after it: the loop shared by
      `set_dimensions` and `set_position`. The pair is set when both fields
      fit the buffer, both values fit a u32, and the name decodes or neither
      value changes (only a change prints the name). */
  function SetTwo(m: ImageMetadata, f: Field, g: Field, a: int, b: int): (r: Result<ImageMetadata>)
    requires FieldOffset(f) + 4 <= FieldOffset(g)
    ensures r.Ok? <==> && FieldOffset(g) + 4 <= |m.data| && 0 <= a < TwoTo32 && 0 <= b < TwoTo32
                       && (NameDecodes(m) || (GetField(m, f) == Ok(a) && GetField(m, g) == Ok(b)))
    ensures r.Ok? ==> |r.value.data| == |m.data| && Name(r.value) == Name(m)
    ensures r.Ok? ==> GetField(r.value, f) == Ok(a) && GetField(r.value, g) == Ok(b)
    ensures r.Ok? ==> forall h :: h != f && h != g ==> GetField(r.value, h) == GetField(m, h)
    ensures r.Ok? ==> forall i :: 0 <= i < |m.data| && !InField(i, f) && !InField(i, g) ==>
                        r.value.data[i] == m.data[i]
  {
    var m1 :- SetField(m, f, a);
    SetFieldFrame(m, f, g, a);
    var m2 :- SetField(m1, g, b);
    SetFieldFrame(m1, g, f, b);
    assert forall h :: h != f && h != g ==> GetField(m2, h) == GetField(m, h) by {
      forall h | h != f && h != g
        ensures GetField(m2, h) == GetField(m, h)
      {
        SetFieldFrame(m, f, h, a);
        SetFieldFrame(m1, g, h, b);
      }
    }
    Ok(m2)
  }

  /** `set_dimensions(rtype, (width, height))`: the tier's width field, then
      its length field. */
  function SetDimensions(m: ImageMetadata, rtype: int, width: int, height: int): (r: Result<ImageMetadata>)
    ensures r.Ok? <==> && FieldOffset(LengthField(rtype)) + 4 <= |m.data|
                       && 0 <= width < TwoTo32 && 0 <= height < TwoTo32
                       && (NameDecodes(m) || (GetField(m, WidthField(rtype)) == Ok(width)
                                              && GetField(m, LengthField(rtype)) == Ok(height)))
    ensures r.Ok? ==> |r.value.data| == |m.data| && Name(r.value) == Name(m)
    ensures r.Ok? ==> GetField(r.value, WidthField(rtype)) == Ok(width)
    ensures r.Ok? ==> GetField(r.value, LengthField(rtype)) == Ok(height)
    ensures r.Ok? ==> forall g :: g != WidthField(rtype) && g != LengthField(rtype) ==>
                        GetField(r.value, g) == GetField(m, g)
    ensures r.Ok? ==> forall i ::
                        0 <= i < |m.data| && !InField(i, WidthField(rtype)) && !InField(i, LengthField(rtype)) ==>
                        r.value.data[i] == m.data[i]
  {
    SetTwo(m, WidthField(rtype), LengthField(rtype), width, height)
  }

  /** `set_position(rtype, (offset, size))`: the tier's offset field, then
      its size field. */
  function SetPosition(m: ImageMetadata, rtype: int, offset: int, size: int): (r: Result<ImageMetadata>)
    ensures r.Ok? <==> && FieldOffset(SizeField(rtype)) + 4 <= |m.data|
                       && 0 <= offset < TwoTo32 && 0 <= size < TwoTo32
                       && (NameDecodes(m) || GetPosition(m, rtype) == Ok((offset, size)))
    ensures r.Ok? ==> |r.value.data| == |m.data| && Name(r.value) == Name(m)
    ensures r.Ok? ==> GetPosition(r.value, rtype) == Ok((offset, size))
    ensures r.Ok? ==> forall g :: g != OffField(rtype) && g != SizeField(rtype) ==>
                        GetField(r.value, g) == GetField(m, g)
    ensures r.Ok? ==> forall i :: 0 <= i < |m.data| && !InField(i, OffField(rtype)) && !InField(i, SizeField(rtype)) ==>
                        r.value.data[i] == m.data[i]
  {
    SetTwo(m, OffField(rtype), SizeField(rtype), offset, size)
  }

  /** Byte `i` of the record belongs to one of the four fields of the
      tier `rtype` selects. */
  predicate InTier(i: int, rtype: int) {
    || InField(i, WidthField(rtype)) || InField(i, LengthField(rtype))
    || InField(i, OffField(rtype)) || InField(i, SizeField(rtype))
  }

  /** `get_position(rtype)`: the tier's (offset, size) pair. */
  function GetPosition(m: ImageMetadata, rtype: int): (r: Result<(nat, nat)>)
    ensures r.Ok? <==> FieldOffset(SizeField(rtype)) + 4 <= |m.data|
    ensures r.Ok? ==> Ok(r.value.0) == GetField(m, OffField(rtype))
    ensures r.Ok? ==> Ok(r.value.1) == GetField(m, SizeField(rtype))
  {
    var off :- GetField(m, OffField(rtype));
    var size :- GetField(m, SizeField(rtype));
    Ok((off, size))
  }
}

=== FILE: packer.dfy ===
/** Packing (`pack_resources` with its inner `write_png` and `get_metadata`):
    rebuild the low and high data files from replacement PNGs, keeping every
    record's offset, and write a new index with the updated records. The
    `modified` directory is a map from file names to contents; the
    replacement images are the tree `<Low|High>/<name>.png` the extractor
    produces. */
module Packer {
  import opened Results
  import opened Primitives
  import opened Metadata
  import opened IndexCodec
  import opened PngHeader
  import opened Extractor

  // ---------------------------------------------------------------------
  // The offset dictionaries of `get_metadata`

  /** Each tier's offset of every record, in record order. Reading a field
      of a record too short to hold it fails. */
  function Offsets(records: seq<ImageMetadata>, t: nat): (r: Result<seq<nat>>)
    ensures r.Ok? <==> forall i :: 0 <= i < |records| ==> GetField(records[i], OffField(t)).Ok?
    ensures r.Ok? ==> |r.value| == |records|
    ensures r.Ok? ==> forall i :: 0 <= i < |records| ==> GetField(records[i], OffField(t)) == Ok(r.value[i])
    decreases |records|
  {
    if |records| == 0 then Ok([])
    else
      var n := |records| - 1;
      match Offsets(records[..n], t)
      case Err(e) => Err(e)
      case Ok(init) =>
        match GetField(records[n], OffField(t))
        case Err(e) => Err(e)
        case Ok(off) =>
          assert forall i :: 0 <= i < n ==> records[..n][i] == records[i];
          Ok(init + [off])
  }

  /** The loop over the records in `get_metadata`: both offsets of every
      record. Either read fails for a record shorter than the high offset
      field, with the same error. */
  function CollectOffsets(records: seq<ImageMetadata>): (r: Result<(seq<nat>, seq<nat>)>)
    ensures r.Ok? <==> forall i :: 0 <= i < |records| ==> FieldOffset(OffHigh) + 4 <= |records[i].data|
    ensures r.Ok? ==> r.value.0 == Offsets(records, 0).value && r.value.1 == Offsets(records, 1).value
    ensures r.Ok? ==> |r.value.0| == |records| == |r.value.1|
  {
    var low :- Offsets(records, 0);
    var high :- Offsets(records, 1);
    Ok((low, high))
  }

  /** `offsets[off] = len(metas)` for each record in turn: a dictionary
      from offset to record index in which a later record with the same
      offset replaces an earlier one. */
  function OffsetIndex(offs: seq<nat>): (m: map<nat, nat>)
    ensures forall k :: k in m <==> k in offs
    ensures forall k :: k in m ==> m[k] < |offs| && offs[m[k]] == k
    ensures forall k, j :: k in m && m[k] < j < |offs| ==> offs[j] != k
    decreases |offs|
  {
    if |offs| == 0 then map[]
    else
      var n := |offs| - 1;
      var prefix := offs[..n];
      var init := OffsetIndex(prefix);
      assert forall k :: k in offs <==> k in prefix || k == offs[n];
      assert forall j :: 0 <= j < n ==> offs[j] == prefix[j];
      init[offs[n] := n]
  }

  /** Distinct offsets map to distinct records. */
  lemma OffsetIndexInjective(offs: seq<nat>, a: nat, b: nat)
    requires a in OffsetIndex(offs) && b in OffsetIndex(offs) && a != b
    ensures OffsetIndex(offs)[a] != OffsetIndex(offs)[b]
  {
  }

  predicate StrictlyIncreasing(s: seq<nat>) {
    forall i, j :: 0 <= i < j < |s| ==> s[i] < s[j]
  }

  /** Insert `x` into a strictly increasing sequence, unless present. */
  function Insert(x: nat, s: seq<nat>): (r: seq<nat>)
    requires StrictlyIncreasing(s)
    ensures StrictlyIncreasing(r)
    ensures forall y :: y in r <==> y == x || y in s
    ensures |r| > 0 && r[0] == if |s| == 0 || x < s[0] then x else s[0]
    decreases |s|
  {
    if |s| == 0 then [x]
    else if x < s[0] then [x] + s
    else if x == s[0] then s
    else
      var tail := Insert(x, s[1..]);
      assert s[0] < tail[0];
      [s[0]] + tail
  }

  /** `sorted(offsets)`: the distinct offsets in ascending order. */
  function SortedOffsets(offs: seq<nat>): (r: seq<nat>)
    ensures StrictlyIncreasing(r)
    ensures forall y :: y in r <==> y in offs
    decreases |offs|
  {
    if |offs| == 0 then []
    else
      var n := |offs| - 1;
      assert forall y :: y in offs <==> y in offs[..n] || y == offs[n];
      Insert(offs[n], SortedOffsets(offs[..n]))
  }

  // ---------------------------------------------------------------------
  // One offset of one tier

  /** `b'\x00' * (offset - resource.tell())`: zeros up to `offset`, nothing
      when the file is already past it. */
  function Pad(out: seq<byte>, offset: nat): (r: seq<byte>)
    ensures |r| == if offset > |out| then offset else |out|
    ensures out <= r
    ensures forall p :: |out| <= p < |r| ==> r[p] == 0
  {
    out + Zeros(if offset > |out| then offset - |out| else 0)
  }

  /** The replacement image `<Low|High>/<name>.png` for a record, if any. */
  function Replacement(t: nat, m: ImageMetadata, pngs: PngTree): Option<seq<byte>> {
    var key := PngKey(t, Name(m));
    if key in pngs then Some(pngs[key]) else None
  }

  /** One of the four fields a tier's update writes. */
  predicate TierField(g: Field, t: nat) {
    g == WidthField(t) || g == LengthField(t) || g == OffField(t) || g == SizeField(t)
  }

  datatype Written = Written(out: seq<byte>, length: Result<nat>)

  /** `write_png(png_filename, length, resource)`: a missing file writes
      nothing and gives 0; otherwise the whole file is written, then a file
      longer than `length` is a MemoryError, and a shorter one is padded with
      zeros to `length`. */
  function WritePng(png: Option<seq<byte>>, length: nat, out: seq<byte>): (r: Written)
    ensures png.None? ==> r == Written(out, Ok(0))
    ensures png.Some? && |png.value| > length ==> r == Written(out + png.value, Err(MemoryError))
    ensures png.Some? && |png.value| <= length ==>
              r.length == Ok(|png.value|) && |r.out| == |out| + length
              && r.out[..|out| + |png.value|] == out + png.value
              && forall p :: |out| + |png.value| <= p < |r.out| ==> r.out[p] == 0
  {
    match png
    case None => Written(out, Ok(0))
    case Some(p) =>
      if |p| > length then Written(out + p, Err(MemoryError))
      else
        var w := out + p + Zeros(length - |p|);
        assert w[..|out| + |p|] == out + p;
        Written(w, Ok(|p|))
  }

  /** `set_dimensions(t, get_png_dimensions(png))` then
      `set_position(t, (offset, len(png)))`. */
  function UpdateRecord(m: ImageMetadata, t: nat, offset: nat, png: seq<byte>): (r: Result<ImageMetadata>)
    ensures PngDimensions(png).Err? ==> r == Err(PngDimensions(png).error)
    ensures r.Ok? ==> |r.value.data| == |m.data| && Name(r.value) == Name(m)
    ensures r.Ok? ==> GetPosition(r.value, t) == Ok((offset, |png|))
    ensures r.Ok? ==> GetField(r.value, WidthField(t)) == Ok(PngDimensions(png).value.0)
                      && GetField(r.value, LengthField(t)) == Ok(PngDimensions(png).value.1)
    ensures r.Ok? ==> forall g :: TierField(g, t) || GetField(r.value, g) == GetField(m, g)
    ensures r.Ok? ==> forall i :: 0 <= i < |m.data| && !InTier(i, t) ==> r.value.data[i] == m.data[i]
  {
    var dims :- PngDimensions(png);
    var m1 :- SetDimensions(m, t, dims.0, dims.1);
    var m2 :- SetPosition(m1, t, offset, |png|);
    assert WidthField(t) != OffField(t) && WidthField(t) != SizeField(t);
    assert LengthField(t) != OffField(t) && LengthField(t) != SizeField(t);
    assert forall g :: TierField(g, t) || GetField(m2, g) == GetField(m, g) by {
      forall g | !TierField(g, t)
        ensures GetField(m2, g) == GetField(m, g)
      {
        assert GetField(m2, g) == GetField(m1, g);
      }
    }
    Ok(m2)
  }

  datatype Placed = Placed(out: seq<byte>, record: ImageMetadata, err: Option<Error>)

  /** `write_png` for record `m` whose old size in the tier is `size`,
      then, when it wrote an image of nonzero length, the record update. On
      any failure the record is left as it was. */
  function PlaceImage(t: nat, offset: nat, m: ImageMetadata, size: nat, pngs: PngTree,
                      out: seq<byte>): (r: Placed)
    ensures out <= r.out
    ensures |r.record.data| == |m.data| && Name(r.record) == Name(m)
    ensures var png := Replacement(t, m, pngs);
            && (png.None? ==> r == Placed(out, m, None))
            && (png.Some? && |png.value| > size ==> r == Placed(out + png.value, m, Some(MemoryError)))
            && (png.Some? && |png.value| <= size ==>
                  && |r.out| == |out| + size
                  && r.out[..|out| + |png.value|] == out + png.value
                  && (forall p :: |out| + |png.value| <= p < |r.out| ==> r.out[p] == 0))
            && (png.Some? && |png.value| == 0 ==> r == Placed(out + Zeros(size), m, None))
    ensures r.err.Some? ==> r.record == m
    ensures r.err.None? && Replacement(t, m, pngs).Some? && |Replacement(t, m, pngs).value| > 0 ==>
              var png := Replacement(t, m, pngs).value;
              && |png| <= size
              && PngDimensions(png).Ok?
              && GetPosition(r.record, t) == Ok((offset, |png|))
              && GetField(r.record, WidthField(t)) == Ok(PngDimensions(png).value.0)
              && GetField(r.record, LengthField(t)) == Ok(PngDimensions(png).value.1)
              && (forall g :: TierField(g, t) || GetField(r.record, g) == GetField(m, g))
              && forall i :: 0 <= i < |m.data| && !InTier(i, t) ==> r.record.data[i] == m.data[i]
  {
    var png := Replacement(t, m, pngs);
    var w := WritePng(png, size, out);
    match w.length
    case Err(e) => Placed(w.out, m, Some(e))
    case Ok(n) =>
      if n == 0 then Placed(w.out, m, None)
      else
        match UpdateRecord(m, t, offset, png.value)
        case Err(e) => Placed(w.out, m, Some(e))
        case Ok(m2) => Placed(w.out, m2, None)
  }

  datatype Rebuild = Rebuild(out: seq<byte>, records: seq<ImageMetadata>, err: Option<Error>)

  /** The body of the loop over one tier's sorted offsets, for `offset`
      and the record `records[i]` the dictionary names for it: pad, skip
      offset 0, decode the record's name for the image's path, read the
      record's old size, write the replacement image and update the
      record. */
  function TierStep(t: nat, offset: nat, i: nat, pngs: PngTree,
                    out: seq<byte>, records: seq<ImageMetadata>): (r: Rebuild)
    requires i < |records|
    ensures out <= r.out && Pad(out, offset) <= r.out
    ensures |r.records| == |records| && forall j :: 0 <= j < |records| && j != i ==> r.records[j] == records[j]
    ensures |r.records[i].data| == |records[i].data| && Name(r.records[i]) == Name(records[i])
    ensures offset == 0 ==> r == Rebuild(out, records, None)
    ensures offset != 0 && !NameDecodes(records[i]) ==> r == Rebuild(Pad(out, offset), records, Some(DecodeError))
  {
    var padded := Pad(out, offset);
    if offset == 0 then Rebuild(padded, records, None)
    else if !NameDecodes(records[i]) then Rebuild(padded, records, Some(DecodeError))
    else
      match GetField(records[i], SizeField(t))
      case Err(e) => Rebuild(padded, records, Some(e))
      case Ok(size) =>
        var p := PlaceImage(t, offset, records[i], size, pngs, padded);
        Rebuild(p.out, records[i := p.record], p.err)
  }

  // ---------------------------------------------------------------------
  // One tier

  /** Every key has a record in the dictionary. */
  ghost predicate Indexed(keys: seq<nat>, idx: map<nat, nat>, records: seq<ImageMetadata>) {
    forall k :: k in keys ==> k in idx && idx[k] < |records|
  }

  /** The loop `for offset in sorted(offsets)` of one tier: every offset in
      order, stopping at the first failure with what was written so far. */
  function PackTier(t: nat, keys: seq<nat>, idx: map<nat, nat>, pngs: PngTree,
                    out: seq<byte>, records: seq<ImageMetadata>): (r: Rebuild)
    requires Indexed(keys, idx, records)
    ensures out <= r.out
    ensures |r.records| == |records|
    ensures forall j :: 0 <= j < |records| ==>
              |r.records[j].data| == |records[j].data| && Name(r.records[j]) == Name(records[j])
    ensures forall j :: 0 <= j < |records| && (forall k :: k in keys ==> idx[k] != j) ==> r.records[j] == records[j]
    decreases |keys|
  {
    if |keys| == 0 then Rebuild(out, records, None)
    else
      var s := TierStep(t, keys[0], idx[keys[0]], pngs, out, records);
      if s.err.Some? then s
      else
        assert forall k :: k in keys[1..] ==> k in keys;
        PackTier(t, keys[1..], idx, pngs, s.out, s.records)
  }

  // ---------------------------------------------------------------------
  // Placement

  /** The replacement image of the record the dictionary names for `k`. */
  ghost function ImageAt(t: nat, idx: map<nat, nat>, records: seq<ImageMetadata>, pngs: PngTree, k: nat)
    : Option<seq<byte>>
    requires k in idx && idx[k] < |records|
  {
    Replacement(t, records[idx[k]], pngs)
  }

  /** That record's size in the tier before packing (0 when unreadable). */
  ghost function OldSize(t: nat, idx: map<nat, nat>, records: seq<ImageMetadata>, k: nat): nat
    requires k in idx && idx[k] < |records|
  {
    var size := GetField(records[idx[k]], SizeField(t));
    if size.Ok? then size.value else 0
  }

  /** No two keys name the same record. */
  ghost predicate Distinct(keys: seq<nat>, idx: map<nat, nat>)
    requires forall k :: k in keys ==> k in idx
  {
    forall a, b :: 0 <= a < b < |keys| ==> idx[keys[a]] != idx[keys[b]]
  }

  /** The original slots do not overlap: each ends by the next offset. */
  ghost predicate SlotsApart(t: nat, keys: seq<nat>, idx: map<nat, nat>, records: seq<ImageMetadata>)
    requires Indexed(keys, idx, records)
  {
    forall a :: 0 <= a < |keys| - 1 && keys[a] != 0 ==> keys[a] + OldSize(t, idx, records, keys[a]) <= keys[a + 1]
  }

  /** Byte `p` lies in the image written at some nonzero key. */
  ghost predicate Covered(t: nat, keys: seq<nat>, idx: map<nat, nat>, records: seq<ImageMetadata>,
                          pngs: PngTree, p: nat)
    requires Indexed(keys, idx, records)
  {
    exists a :: 0 <= a < |keys| && keys[a] != 0 && ImageAt(t, idx, records, pngs, keys[a]).Some?
                && keys[a] <= p < keys[a] + |ImageAt(t, idx, records, pngs, keys[a]).value|
  }

  /** A successful step at a nonzero offset the file has not reached yet:
      zeros up to the offset, then the image and zeros to the old size, or
      nothing more when there is no image. */
  lemma StepShape(t: nat, offset: nat, i: nat, pngs: PngTree, out: seq<byte>, records: seq<ImageMetadata>)
    requires i < |records| && offset != 0 && |out| <= offset
    requires TierStep(t, offset, i, pngs, out, records).err.None?
    ensures GetField(records[i], SizeField(t)).Ok?
    ensures var s := TierStep(t, offset, i, pngs, out, records);
            var png := Replacement(t, records[i], pngs);
            var size := GetField(records[i], SizeField(t)).value;
            && |s.out| == offset + (if png.Some? then size else 0)
            && (png.Some? ==> |png.value| <= size && s.out[offset..offset + |png.value|] == png.value)
            && forall p :: |out| <= p < |s.out| && !(png.Some? && offset <= p < offset + |png.value|) ==> s.out[p] == 0
  {
    var padded := Pad(out, offset);
    var size := GetField(records[i], SizeField(t)).value;
    var png := Replacement(t, records[i], pngs);
    var placed := PlaceImage(t, offset, records[i], size, pngs, padded);
    if png.Some? {
      assert placed.out[..offset + |png.value|] == padded + png.value;
      assert placed.out[offset..offset + |png.value|] == (padded + png.value)[offset..];
    }
  }

  /** After the step for the first key, the remaining keys see the same
      records, so the same images and old sizes. */
  lemma RestSeesSame(t: nat, keys: seq<nat>, idx: map<nat, nat>, records: seq<ImageMetadata>,
                     records': seq<ImageMetadata>)
    requires |keys| > 0 && Indexed(keys, idx, records) && Distinct(keys, idx)
    requires |records'| == |records|
    requires forall j :: 0 <= j < |records| && j != idx[keys[0]] ==> records'[j] == records[j]
    ensures Indexed(keys[1..], idx, records') && Distinct(keys[1..], idx)
    ensures forall a :: 1 <= a < |keys| ==> records'[idx[keys[a]]] == records[idx[keys[a]]]
  {
    assert forall k :: k in keys[1..] ==> k in keys;
    forall a | 1 <= a < |keys|
      ensures records'[idx[keys[a]]] == records[idx[keys[a]]]
    {
      assert idx[keys[0]] != idx[keys[a]];
    }
  }

  /** Byte `p` covered for the keys after the first is covered for all. */
  lemma CoveredTail(t: nat, keys: seq<nat>, idx: map<nat, nat>, records: seq<ImageMetadata>,
                    records': seq<ImageMetadata>, pngs: PngTree, p: nat)
    requires |keys| > 0 && Indexed(keys, idx, records) && Indexed(keys[1..], idx, records')
    requires forall a :: 1 <= a < |keys| ==> records'[idx[keys[a]]] == records[idx[keys[a]]]
    requires Covered(t, keys[1..], idx, records', pngs, p)
    ensures Covered(t, keys, idx, records, pngs, p)
  {
    var a :| 0 <= a < |keys[1..]| && keys[1..][a] != 0 && ImageAt(t, idx, records', pngs, keys[1..][a]).Some?
              && keys[1..][a] <= p < keys[1..][a] + |ImageAt(t, idx, records', pngs, keys[1..][a]).value|;
    assert keys[1..][a] == keys[a + 1];
  }

  lemma PrefixKeeps(a: seq<byte>, b: seq<byte>, lo: nat, hi: nat)
    requires a <= b && lo <= hi <= |a|
    ensures hi <= |b| && b[lo..hi] == a[lo..hi]
  {
  }

  /** `img` sits in `o` starting at `offset`. */
  ghost predicate SitsAt(o: seq<byte>, offset: nat, img: seq<byte>) {
    offset + |img| <= |o| && o[offset..offset + |img|] == img
  }

  /** Every replacement image of a nonzero key sits in `o` at its key. */
  ghost predicate ImagesPlaced(t: nat, keys: seq<nat>, idx: map<nat, nat>, records: seq<ImageMetadata>,
                               pngs: PngTree, o: seq<byte>)
    requires Indexed(keys, idx, records)
  {
    forall a :: 0 <= a < |keys| && keys[a] != 0 && ImageAt(t, idx, records, pngs, keys[a]).Some? ==>
      SitsAt(o, keys[a], ImageAt(t, idx, records, pngs, keys[a]).value)
  }

  /** Every byte of `o` from `from` on that no image covers is zero. */
  ghost predicate ZeroElsewhere(t: nat, keys: seq<nat>, idx: map<nat, nat>, records: seq<ImageMetadata>,
                                pngs: PngTree, from: nat, o: seq<byte>)
    requires Indexed(keys, idx, records)
  {
    forall p :: from <= p < |o| && !Covered(t, keys, idx, records, pngs, p) ==> o[p] == 0
  }

  /** Placement for the keys after the first carries over to all keys,
      given the first image is in place. */
  lemma PlacedTail(t: nat, keys: seq<nat>, idx: map<nat, nat>, records: seq<ImageMetadata>,
                   records': seq<ImageMetadata>, pngs: PngTree, o: seq<byte>)
    requires |keys| > 0 && Indexed(keys, idx, records) && Indexed(keys[1..], idx, records')
    requires forall a :: 1 <= a < |keys| ==> records'[idx[keys[a]]] == records[idx[keys[a]]]
    requires ImagesPlaced(t, keys[1..], idx, records', pngs, o)
    requires keys[0] != 0 && ImageAt(t, idx, records, pngs, keys[0]).Some? ==>
               SitsAt(o, keys[0], ImageAt(t, idx, records, pngs, keys[0]).value)
    ensures ImagesPlaced(t, keys, idx, records, pngs, o)
  {
    forall a | 1 <= a < |keys| && keys[a] != 0 && ImageAt(t, idx, records, pngs, keys[a]).Some?
      ensures SitsAt(o, keys[a], ImageAt(t, idx, records, pngs, keys[a]).value)
    {
      assert keys[1..][a - 1] == keys[a];
    }
  }

  /** Zeros after the first step's output carry over to all keys, given
      the first step's own bytes are zero outside its image. */
  lemma ZeroTail(t: nat, keys: seq<nat>, idx: map<nat, nat>, records: seq<ImageMetadata>,
                 records': seq<ImageMetadata>, pngs: PngTree, from: nat, mid: nat, o: seq<byte>)
    requires |keys| > 0 && Indexed(keys, idx, records) && Indexed(keys[1..], idx, records')
    requires forall a :: 1 <= a < |keys| ==> records'[idx[keys[a]]] == records[idx[keys[a]]]
    requires ZeroElsewhere(t, keys[1..], idx, records', pngs, mid, o)
    requires forall p :: from <= p < mid && p < |o| && !Covered(t, keys, idx, records, pngs, p) ==> o[p] == 0
    ensures ZeroElsewhere(t, keys, idx, records, pngs, from, o)
  {
    forall p | from <= p < |o| && !Covered(t, keys, idx, records, pngs, p)
      ensures o[p] == 0
    {
      if p >= mid && Covered(t, keys[1..], idx, records', pngs, p) {
        CoveredTail(t, keys, idx, records, records', pngs, p);
      }
    }
  }

  /** A step output shaped as StepShape says, inside the whole output:
      the first image at its key, zero elsewhere from `|out|` on. */
  lemma ShapePlaced(t: nat, keys: seq<nat>, idx: map<nat, nat>, pngs: PngTree, records: seq<ImageMetadata>,
                    out: seq<byte>, mid: seq<byte>, o: seq<byte>)
    requires |keys| > 0 && Indexed(keys, idx, records) && keys[0] != 0 && mid <= o
    requires var png := ImageAt(t, idx, records, pngs, keys[0]);
             && (png.Some? ==> SitsAt(mid, keys[0], png.value))
             && forall p :: |out| <= p < |mid| && !(png.Some? && keys[0] <= p < keys[0] + |png.value|) ==> mid[p] == 0
    ensures ImageAt(t, idx, records, pngs, keys[0]).Some? ==>
              SitsAt(o, keys[0], ImageAt(t, idx, records, pngs, keys[0]).value)
    ensures forall p :: |out| <= p < |mid| && p < |o| && !Covered(t, keys, idx, records, pngs, p) ==> o[p] == 0
  {
    var k := keys[0];
    var png := ImageAt(t, idx, records, pngs, k);
    if png.Some? {
      PrefixKeeps(mid, o, k, k + |png.value|);
    }
    forall p | png.Some? && k <= p < k + |png.value|
      ensures Covered(t, keys, idx, records, pngs, p)
    {
      assert keys[0] == k;
    }
    forall p | |out| <= p < |mid| && p < |o| && !(png.Some? && k <= p < k + |png.value|)
      ensures o[p] == 0
    {
      assert o[p] == mid[p];
    }
  }

  /** The first step's output, inside the whole output: zero outside the
      first image from `|out|` on, and the image at its key. */
  lemma FirstStepPlaced(t: nat, keys: seq<nat>, idx: map<nat, nat>, pngs: PngTree,
                        out: seq<byte>, records: seq<ImageMetadata>, o: seq<byte>)
    requires |keys| > 0 && Indexed(keys, idx, records)
    requires keys[0] != 0 ==> |out| <= keys[0]
    requires TierStep(t, keys[0], idx[keys[0]], pngs, out, records).err.None?
    requires TierStep(t, keys[0], idx[keys[0]], pngs, out, records).out <= o
    ensures keys[0] != 0 && ImageAt(t, idx, records, pngs, keys[0]).Some? ==>
              SitsAt(o, keys[0], ImageAt(t, idx, records, pngs, keys[0]).value)
    ensures var mid := |TierStep(t, keys[0], idx[keys[0]], pngs, out, records).out|;
            forall p :: |out| <= p < mid && p < |o| && !Covered(t, keys, idx, records, pngs, p) ==> o[p] == 0
    ensures keys[0] != 0 ==>
              |TierStep(t, keys[0], idx[keys[0]], pngs, out, records).out|
              <= keys[0] + OldSize(t, idx, records, keys[0])
  {
    var k := keys[0];
    var s := TierStep(t, k, idx[k], pngs, out, records);
    if k != 0 {
      StepShape(t, k, idx[k], pngs, out, records);
      ShapePlaced(t, keys, idx, pngs, records, out, s.out, o);
    }
  }

  /** What the recursive call for the keys after the first needs. */
  lemma RestPreconditions(t: nat, keys: seq<nat>, idx: map<nat, nat>, records: seq<ImageMetadata>,
                          records': seq<ImageMetadata>, start: nat, mid: nat)
    requires |keys| > 0 && Indexed(keys, idx, records) && Indexed(keys[1..], idx, records')
    requires forall a :: 1 <= a < |keys| ==> records'[idx[keys[a]]] == records[idx[keys[a]]]
    requires StrictlyIncreasing(keys) && SlotsApart(t, keys, idx, records)
    requires forall k :: k in keys && k != 0 ==> start <= k
    requires keys[0] == 0 ==> mid == start
    requires keys[0] != 0 ==> mid <= keys[0] + OldSize(t, idx, records, keys[0])
    ensures StrictlyIncreasing(keys[1..]) && SlotsApart(t, keys[1..], idx, records')
    ensures forall k :: k in keys[1..] && k != 0 ==> mid <= k
  {
    RestApart(t, keys, idx, records, records');
    RestAfterMid(t, keys, idx, records, start, mid);
  }

  lemma RestApart(t: nat, keys: seq<nat>, idx: map<nat, nat>, records: seq<ImageMetadata>,
                  records': seq<ImageMetadata>)
    requires |keys| > 0 && Indexed(keys, idx, records) && Indexed(keys[1..], idx, records')
    requires forall a :: 1 <= a < |keys| ==> records'[idx[keys[a]]] == records[idx[keys[a]]]
    requires StrictlyIncreasing(keys) && SlotsApart(t, keys, idx, records)
    ensures StrictlyIncreasing(keys[1..]) && SlotsApart(t, keys[1..], idx, records')
  {
    var rest := keys[1..];
    forall a | 0 <= a < |rest| - 1 && rest[a] != 0
      ensures rest[a] + OldSize(t, idx, records', rest[a]) <= rest[a + 1]
    {
      assert rest[a] == keys[a + 1] && rest[a + 1] == keys[a + 2];
    }
  }

  lemma RestAfterMid(t: nat, keys: seq<nat>, idx: map<nat, nat>, records: seq<ImageMetadata>, start: nat, mid: nat)
    requires |keys| > 0 && Indexed(keys, idx, records)
    requires StrictlyIncreasing(keys) && SlotsApart(t, keys, idx, records)
    requires forall k :: k in keys && k != 0 ==> start <= k
    requires keys[0] == 0 ==> mid == start
    requires keys[0] != 0 ==> mid <= keys[0] + OldSize(t, idx, records, keys[0])
    ensures forall k :: k in keys[1..] && k != 0 ==> mid <= k
  {
    var rest := keys[1..];
    forall j | j in rest && j != 0
      ensures mid <= j
    {
      var a :| 0 <= a < |rest| && rest[a] == j;
      assert keys[a + 1] == j && j in keys;
      if keys[0] != 0 {
        assert keys[1] <= keys[a + 1];
      }
    }
  }


  /** Packing a tier whose original slots do not overlap puts every
      replacement image exactly at its record's offset, and every other byte
      it writes is zero. */
  lemma {:induction false} PackTierPlacement(t: nat, keys: seq<nat>, idx: map<nat, nat>, pngs: PngTree,
                                             out: seq<byte>, records: seq<ImageMetadata>)
    requires Indexed(keys, idx, records) && Distinct(keys, idx)
    requires StrictlyIncreasing(keys) && SlotsApart(t, keys, idx, records)
    requires forall k :: k in keys && k != 0 ==> |out| <= k
    requires PackTier(t, keys, idx, pngs, out, records).err.None?
    ensures ImagesPlaced(t, keys, idx, records, pngs, PackTier(t, keys, idx, pngs, out, records).out)
    ensures ZeroElsewhere(t, keys, idx, records, pngs, |out|, PackTier(t, keys, idx, pngs, out, records).out)
    decreases |keys|
  {
    if |keys| > 0 {
      var k := keys[0];
      var s := TierStep(t, k, idx[k], pngs, out, records);
      var rest := keys[1..];
      var r := PackTier(t, rest, idx, pngs, s.out, s.records);
      assert r == PackTier(t, keys, idx, pngs, out, records);
      RestSeesSame(t, keys, idx, records, s.records);
      assert k in keys;
      FirstStepPlaced(t, keys, idx, pngs, out, records, r.out);
      RestPreconditions(t, keys, idx, records, s.records, |out|, |s.out|);
      PackTierPlacement(t, rest, idx, pngs, s.out, s.records);
      PlacedTail(t, keys, idx, records, s.records, pngs, r.out);
      ZeroTail(t, keys, idx, records, s.records, pngs, |out|, |s.out|, r.out);
    }
  }

  // ---------------------------------------------------------------------
  // Record updates

  /** `m'` is `m` after a replacement image `png` was written at `offset`
      in tier `t`: the image fit the old slot, the position is the offset
      and the image's length, the dimensions are the image's, and nothing
      else of the record changed: every other field reads as before, and
      every byte outside the tier's four fields is the old byte. */
  ghost predicate Updated(t: nat, m: ImageMetadata, m': ImageMetadata, offset: nat, png: seq<byte>) {
    && GetField(m, SizeField(t)).Ok? && |png| <= GetField(m, SizeField(t)).value
    && PngDimensions(png).Ok?
    && GetPosition(m', t) == Ok((offset, |png|))
    && GetField(m', WidthField(t)) == Ok(PngDimensions(png).value.0)
    && GetField(m', LengthField(t)) == Ok(PngDimensions(png).value.1)
    && (forall g :: TierField(g, t) || GetField(m', g) == GetField(m, g))
    && |m'.data| == |m.data| && Name(m') == Name(m)
    && (forall i :: 0 <= i < |m.data| && !InTier(i, t) ==> m'.data[i] == m.data[i])
  }

  /** What a successful step does to the record it names: the update when
      a nonempty image was written at a nonzero offset, nothing otherwise. */
  lemma StepRecord(t: nat, offset: nat, i: nat, pngs: PngTree, out: seq<byte>, records: seq<ImageMetadata>)
    requires i < |records|
    requires TierStep(t, offset, i, pngs, out, records).err.None?
    ensures var s := TierStep(t, offset, i, pngs, out, records);
            var img := Replacement(t, records[i], pngs);
            if offset != 0 && img.Some? && |img.value| > 0 then Updated(t, records[i], s.records[i], offset, img.value)
            else s.records[i] == records[i]
  {
  }

  /** What a successful pass does to the record key `k` names: the update
      when `k` is not 0 and its replacement image exists and is not empty;
      nothing otherwise. */
  ghost predicate KeyUpdates(t: nat, idx: map<nat, nat>, records: seq<ImageMetadata>, records': seq<ImageMetadata>,
                             pngs: PngTree, k: nat)
    requires k in idx && idx[k] < |records| && |records'| == |records|
  {
    var i := idx[k];
    var img := ImageAt(t, idx, records, pngs, k);
    if k != 0 && img.Some? && |img.value| > 0 then Updated(t, records[i], records'[i], k, img.value)
    else records'[i] == records[i]
  }

  /** No key after the first names the first key's record. */
  lemma RestSkipsFirst(keys: seq<nat>, idx: map<nat, nat>, records: seq<ImageMetadata>)
    requires |keys| > 0 && Indexed(keys, idx, records) && Distinct(keys, idx)
    ensures forall k :: k in keys[1..] ==> idx[k] != idx[keys[0]]
  {
    forall k | k in keys[1..]
      ensures idx[k] != idx[keys[0]]
    {
      var a :| 0 <= a < |keys[1..]| && keys[1..][a] == k;
      assert keys[a + 1] == k;
    }
  }

  /** After a successful tier, each key's record is updated with its
      replacement image when one of nonzero length exists and the key is
      not 0, and is exactly as before otherwise. */
  lemma {:induction false} PackTierRecords(t: nat, keys: seq<nat>, idx: map<nat, nat>, pngs: PngTree,
                                           out: seq<byte>, records: seq<ImageMetadata>)
    requires Indexed(keys, idx, records) && Distinct(keys, idx)
    requires PackTier(t, keys, idx, pngs, out, records).err.None?
    ensures var r := PackTier(t, keys, idx, pngs, out, records);
            forall a :: 0 <= a < |keys| ==> KeyUpdates(t, idx, records, r.records, pngs, keys[a])
    decreases |keys|
  {
    if |keys| > 0 {
      var k := keys[0];
      var i0 := idx[k];
      var s := TierStep(t, k, i0, pngs, out, records);
      var rest := keys[1..];
      var r := PackTier(t, rest, idx, pngs, s.out, s.records);
      assert r == PackTier(t, keys, idx, pngs, out, records);
      RestSeesSame(t, keys, idx, records, s.records);
      StepRecord(t, k, i0, pngs, out, records);
      PackTierRecords(t, rest, idx, pngs, s.out, s.records);
      RestSkipsFirst(keys, idx, records);
      assert r.records[i0] == s.records[i0];
      assert KeyUpdates(t, idx, records, r.records, pngs, k);
      forall a | 1 <= a < |keys|
        ensures KeyUpdates(t, idx, records, r.records, pngs, keys[a])
      {
        assert rest[a - 1] == keys[a];
        assert KeyUpdates(t, idx, s.records, r.records, pngs, rest[a - 1]);
      }
    }
  }


  /** An image longer than the record's old slot is written in full, at
      the padded position, before the MemoryError. (A name that does not
      decode fails earlier, with nothing written; see TierStep.) */
  lemma StepOversized(t: nat, offset: nat, i: nat, pngs: PngTree, out: seq<byte>, records: seq<ImageMetadata>)
    requires i < |records| && offset != 0 && NameDecodes(records[i])
    requires GetField(records[i], SizeField(t)).Ok?
    requires Replacement(t, records[i], pngs).Some?
    requires |Replacement(t, records[i], pngs).value| > GetField(records[i], SizeField(t)).value
    ensures TierStep(t, offset, i, pngs, out, records)
            == Rebuild(Pad(out, offset) + Replacement(t, records[i], pngs).value, records, Some(MemoryError))
  {
  }

  /** When the file is already past the offset (the previous image's slot
      ran over it), nothing is padded: the image lands at the current end of
      the file, not at the offset, while the record still gets the offset. */
  lemma StepMisplaced(t: nat, offset: nat, i: nat, pngs: PngTree, out: seq<byte>, records: seq<ImageMetadata>)
    requires i < |records| && 0 < offset < |out|
    requires TierStep(t, offset, i, pngs, out, records).err.None?
    requires Replacement(t, records[i], pngs).Some? && |Replacement(t, records[i], pngs).value| > 0
    ensures var s := TierStep(t, offset, i, pngs, out, records);
            var png := Replacement(t, records[i], pngs).value;
            && |out| + |png| <= |s.out| && s.out[|out|..|out| + |png|] == png
            && GetPosition(s.records[i], t) == Ok((offset, |png|))
  {
    var s := TierStep(t, offset, i, pngs, out, records);
    var png := Replacement(t, records[i], pngs).value;
    assert Pad(out, offset) == out;
    assert s.out[..|out| + |png|] == out + png;
    assert s.out[|out|..|out| + |png|] == (out + png)[|out|..];
  }

  /** A tier pass into a file that is empty or starts with a zero byte
      leaves it empty or starting with a zero byte: the first nonzero
      offset is reached by padding. */
  lemma {:induction false} PackTierLeadingZero(t: nat, keys: seq<nat>, idx: map<nat, nat>, pngs: PngTree,
                                               out: seq<byte>, records: seq<ImageMetadata>)
    requires Indexed(keys, idx, records)
    requires out == [] || out[0] == 0
    ensures var r := PackTier(t, keys, idx, pngs, out, records);
            r.out == [] || r.out[0] == 0
    decreases |keys|
  {
    if |keys| > 0 {
      var s := TierStep(t, keys[0], idx[keys[0]], pngs, out, records);
      assert s.out == [] || s.out[0] == 0 by {
        if out == [] && keys[0] != 0 {
          assert Pad(out, keys[0])[0] == 0;
        }
      }
      assert PackTier(t, keys, idx, pngs, out, records)
             == if s.err.Some? then s else PackTier(t, keys[1..], idx, pngs, s.out, s.records);
      if s.err.None? {
        assert forall k :: k in keys[1..] ==> k in keys;
        PackTierLeadingZero(t, keys[1..], idx, pngs, s.out, s.records);
      }
    }
  }

  // ---------------------------------------------------------------------
  // A tier from its offsets

  /** One `with open(...)` block of `get_metadata`: the tier's data file
      rebuilt from `start` over the sorted distinct offsets, each naming the
      last record with that offset. */
  function TierPass(t: nat, records: seq<ImageMetadata>, offs: seq<nat>, pngs: PngTree, start: seq<byte>): (r: Rebuild)
    requires |offs| == |records|
    ensures start <= r.out && |r.records| == |records|
    ensures forall j :: 0 <= j < |records| ==>
              |r.records[j].data| == |records[j].data| && Name(r.records[j]) == Name(records[j])
  {
    PackTier(t, SortedOffsets(offs), OffsetIndex(offs), pngs, start, records)
  }

  /** The offsets of a tier are its keys and its dictionary. */
  lemma TierKeys(offs: seq<nat>, records: seq<ImageMetadata>)
    requires |offs| == |records|
    ensures Indexed(SortedOffsets(offs), OffsetIndex(offs), records)
    ensures Distinct(SortedOffsets(offs), OffsetIndex(offs))
    ensures StrictlyIncreasing(SortedOffsets(offs))
  {
    var keys := SortedOffsets(offs);
    var idx := OffsetIndex(offs);
    forall a, b | 0 <= a < b < |keys|
      ensures idx[keys[a]] != idx[keys[b]]
    {
      OffsetIndexInjective(offs, keys[a], keys[b]);
    }
  }

  /** Placement for a whole tier pass: when the original slots, taken in
      offset order, do not overlap and no nonzero offset lies inside
      `start`, every replacement image sits at its offset and every other
      byte written is zero. */
  lemma TierPassPlacement(t: nat, records: seq<ImageMetadata>, offs: seq<nat>, pngs: PngTree, start: seq<byte>)
    requires |offs| == |records|
    requires SlotsApart(t, SortedOffsets(offs), OffsetIndex(offs), records)
    requires forall k :: k in offs && k != 0 ==> |start| <= k
    requires TierPass(t, records, offs, pngs, start).err.None?
    ensures var out := TierPass(t, records, offs, pngs, start).out;
            && ImagesPlaced(t, SortedOffsets(offs), OffsetIndex(offs), records, pngs, out)
            && ZeroElsewhere(t, SortedOffsets(offs), OffsetIndex(offs), records, pngs, |start|, out)
  {
    TierKeys(offs, records);
    PackTierPlacement(t, SortedOffsets(offs), OffsetIndex(offs), pngs, start, records);
  }

  /** One step's record update and error do not depend on the file it
      writes to. */
  lemma StepStartIndependent(t: nat, offset: nat, i: nat, pngs: PngTree, a: seq<byte>, b: seq<byte>,
                             records: seq<ImageMetadata>)
    requires i < |records|
    ensures TierStep(t, offset, i, pngs, a, records).records == TierStep(t, offset, i, pngs, b, records).records
    ensures TierStep(t, offset, i, pngs, a, records).err == TierStep(t, offset, i, pngs, b, records).err
  {
    if offset != 0 && NameDecodes(records[i]) && GetField(records[i], SizeField(t)).Ok? {
      var size := GetField(records[i], SizeField(t)).value;
      var png := Replacement(t, records[i], pngs);
      var wa := WritePng(png, size, Pad(a, offset));
      var wb := WritePng(png, size, Pad(b, offset));
      assert wa.length == wb.length;
    }
  }

  /** What a tier pass does to the records, and whether it fails, does
      not depend on what the data file held when the pass started. */
  lemma {:induction false} PackTierStartIndependent(t: nat, keys: seq<nat>, idx: map<nat, nat>, pngs: PngTree,
                                                    a: seq<byte>, b: seq<byte>, records: seq<ImageMetadata>)
    requires Indexed(keys, idx, records)
    ensures PackTier(t, keys, idx, pngs, a, records).records == PackTier(t, keys, idx, pngs, b, records).records
    ensures PackTier(t, keys, idx, pngs, a, records).err == PackTier(t, keys, idx, pngs, b, records).err
    decreases |keys|
  {
    if |keys| > 0 {
      var sa := TierStep(t, keys[0], idx[keys[0]], pngs, a, records);
      var sb := TierStep(t, keys[0], idx[keys[0]], pngs, b, records);
      StepStartIndependent(t, keys[0], idx[keys[0]], pngs, a, b, records);
      assert PackTier(t, keys, idx, pngs, a, records)
             == if sa.err.Some? then sa else PackTier(t, keys[1..], idx, pngs, sa.out, sa.records);
      assert PackTier(t, keys, idx, pngs, b, records)
             == if sb.err.Some? then sb else PackTier(t, keys[1..], idx, pngs, sb.out, sb.records);
      if sa.err.None? {
        assert forall k :: k in keys[1..] ==> k in keys;
        PackTierStartIndependent(t, keys[1..], idx, pngs, sa.out, sb.out, sa.records);
      }
    }
  }

  /** A record that is not the last with its offset is named by no key. */
  lemma NotNamed(offs: seq<nat>, j: nat)
    requires j < |offs| && OffsetIndex(offs)[offs[j]] != j
    ensures forall k :: k in OffsetIndex(offs) ==> OffsetIndex(offs)[k] != j
  {
  }

  /** What a successful tier pass does to a record: the update when it is
      the last record with its offset, that offset is not 0, and its
      replacement image exists and is not empty; nothing otherwise. */
  ghost predicate PassUpdates(t: nat, records: seq<ImageMetadata>, offs: seq<nat>, pngs: PngTree,
                              records': seq<ImageMetadata>, j: nat)
    requires |offs| == |records| == |records'| && j < |records|
  {
    var img := Replacement(t, records[j], pngs);
    if OffsetIndex(offs)[offs[j]] == j && offs[j] != 0 && img.Some? && |img.value| > 0
    then Updated(t, records[j], records'[j], offs[j], img.value)
    else records'[j] == records[j]
  }

  /** After a successful tier pass every record is updated or left alone as
      PassUpdates says. */
  lemma TierPassRecords(t: nat, records: seq<ImageMetadata>, offs: seq<nat>, pngs: PngTree, start: seq<byte>)
    requires |offs| == |records|
    requires TierPass(t, records, offs, pngs, start).err.None?
    ensures forall j :: 0 <= j < |records| ==>
              PassUpdates(t, records, offs, pngs, TierPass(t, records, offs, pngs, start).records, j)
  {
    var keys := SortedOffsets(offs);
    var idx := OffsetIndex(offs);
    TierKeys(offs, records);
    var r := PackTier(t, keys, idx, pngs, start, records);
    assert r == TierPass(t, records, offs, pngs, start);
    PackTierRecords(t, keys, idx, pngs, start, records);
    forall j | 0 <= j < |records|
      ensures PassUpdates(t, records, offs, pngs, r.records, j)
    {
      assert offs[j] in keys;
      if idx[offs[j]] != j {
        NotNamed(offs, j);
        assert r.records[j] == records[j];
      }
      PassSlot(t, records, offs, pngs, r.records, j);
    }
  }

  /** One record of TierPassRecords, for any `records'` that updates each
      key's record as KeyUpdates says and leaves record `j` alone when its
      offset names another record. */
  lemma PassSlot(t: nat, records: seq<ImageMetadata>, offs: seq<nat>, pngs: PngTree,
                 records': seq<ImageMetadata>, j: nat)
    requires |offs| == |records| == |records'| && j < |records|
    requires Indexed(SortedOffsets(offs), OffsetIndex(offs), records)
    requires forall a :: 0 <= a < |SortedOffsets(offs)| ==>
               KeyUpdates(t, OffsetIndex(offs), records, records', pngs, SortedOffsets(offs)[a])
    requires offs[j] in OffsetIndex(offs) && (OffsetIndex(offs)[offs[j]] != j ==> records'[j] == records[j])
    ensures PassUpdates(t, records, offs, pngs, records', j)
  {
    var keys := SortedOffsets(offs);
    var idx := OffsetIndex(offs);
    if idx[offs[j]] == j {
      assert offs[j] in keys;
      var a :| 0 <= a < |keys| && keys[a] == offs[j];
      assert KeyUpdates(t, idx, records, records', pngs, keys[a]);
    }
  }

  // ---------------------------------------------------------------------
  // Unpacking, then repacking the extracted images

  /** One image among the placed ones: the replacement image of the
      record key `keys[a]` names sits at that key. */
  lemma PlacedAt(t: nat, keys: seq<nat>, idx: map<nat, nat>, records: seq<ImageMetadata>,
                 pngs: PngTree, o: seq<byte>, a: nat, j: nat, png: seq<byte>)
    requires Indexed(keys, idx, records) && ImagesPlaced(t, keys, idx, records, pngs, o)
    requires a < |keys| && keys[a] != 0 && idx[keys[a]] == j && j < |records|
    requires Replacement(t, records[j], pngs) == Some(png)
    ensures SitsAt(o, keys[a], png)
  {
    assert ImageAt(t, idx, records, pngs, keys[a]) == Some(png);
  }

  /** The position of an offset among the sorted keys. */
  lemma KeyOf(offs: seq<nat>, j: nat) returns (a: nat)
    requires j < |offs|
    ensures a < |SortedOffsets(offs)| && SortedOffsets(offs)[a] == offs[j]
  {
    assert offs[j] in SortedOffsets(offs);
    a :| 0 <= a < |SortedOffsets(offs)| && SortedOffsets(offs)[a] == offs[j];
  }

  /** The position a key's update gives its record, for a nonempty image. */
  lemma KeyUpdatesPosition(t: nat, idx: map<nat, nat>, records: seq<ImageMetadata>, records': seq<ImageMetadata>,
                           pngs: PngTree, k: nat, png: seq<byte>)
    requires k in idx && idx[k] < |records| && |records'| == |records|
    requires KeyUpdates(t, idx, records, records', pngs, k)
    requires k != 0 && ImageAt(t, idx, records, pngs, k) == Some(png) && |png| > 0
    ensures GetPosition(records'[idx[k]], t) == Ok((k, |png|))
  {
  }

  /** One slot after a tier with non-overlapping slots: the replacement
      image of the record key `keys[a]` names, when not empty, sits at the
      key, and the record's position is the key and the image's length. */
  lemma PackTierSlot(t: nat, keys: seq<nat>, idx: map<nat, nat>, pngs: PngTree,
                     out: seq<byte>, records: seq<ImageMetadata>, a: nat, png: seq<byte>)
    requires Indexed(keys, idx, records) && Distinct(keys, idx)
    requires StrictlyIncreasing(keys) && SlotsApart(t, keys, idx, records)
    requires forall k :: k in keys && k != 0 ==> |out| <= k
    requires PackTier(t, keys, idx, pngs, out, records).err.None?
    requires a < |keys| && keys[a] != 0 && ImageAt(t, idx, records, pngs, keys[a]) == Some(png) && |png| > 0
    ensures var r := PackTier(t, keys, idx, pngs, out, records);
            && SitsAt(r.out, keys[a], png)
            && GetPosition(r.records[idx[keys[a]]], t) == Ok((keys[a], |png|))
  {
    var r := PackTier(t, keys, idx, pngs, out, records);
    PackTierPlacement(t, keys, idx, pngs, out, records);
    PlacedAt(t, keys, idx, records, pngs, r.out, a, idx[keys[a]], png);
    PackTierRecords(t, keys, idx, pngs, out, records);
    KeyUpdatesPosition(t, idx, records, r.records, pngs, keys[a], png);
  }

  /** One slot after a tier pass with non-overlapping slots: the record
      that is the last at its nonzero offset, with a nonempty replacement
      image, gets the image at that offset and the offset and the image's
      length as its position. */
  lemma TierPassSlot(t: nat, records: seq<ImageMetadata>, offs: seq<nat>, pngs: PngTree, start: seq<byte>,
                     j: nat, png: seq<byte>)
    requires |offs| == |records| && j < |records|
    requires SlotsApart(t, SortedOffsets(offs), OffsetIndex(offs), records)
    requires forall k :: k in offs && k != 0 ==> |start| <= k
    requires TierPass(t, records, offs, pngs, start).err.None?
    requires offs[j] != 0 && OffsetIndex(offs)[offs[j]] == j
    requires PngKey(t, Name(records[j])) in pngs && pngs[PngKey(t, Name(records[j]))] == png && |png| > 0
    ensures var r := TierPass(t, records, offs, pngs, start);
            && SitsAt(r.out, offs[j], png)
            && GetPosition(r.records[j], t) == Ok((offs[j], |png|))
  {
    TierKeys(offs, records);
    var a := KeyOf(offs, j);
    assert ImageAt(t, OffsetIndex(offs), records, pngs, SortedOffsets(offs)[a]) == Some(png);
    PackTierSlot(t, SortedOffsets(offs), OffsetIndex(offs), pngs, start, records, a, png);
  }

  /** Repacking a tier from the images an unpacking extracted, unchanged,
      puts each image back where it came from. Take a record with an image
      in the tier that is the last record at its offset and the last with
      its name, whose slot lies inside the data file. When the unpacking
      and the tier pass succeed, the bytes of its slot are written back at
      the same offset, and its offset and size fields read as before. */
  lemma UnpackRepackTier(t: nat, records: seq<ImageMetadata>, resourceFiles: seq<FileName>, folder: Folder,
                         tree: PngTree, offs: seq<nat>, start: seq<byte>, j: nat)
    requires t < 2 && Offsets(records, t) == Ok(offs)
    requires UnpackRecords(records, resourceFiles, folder, tree).err.None?
    requires var pngs := UnpackRecords(records, resourceFiles, folder, tree).tree;
             && SlotsApart(t, SortedOffsets(offs), OffsetIndex(offs), records)
             && (forall k :: k in offs && k != 0 ==> |start| <= k)
             && TierPass(t, records, offs, pngs, start).err.None?
    requires j < |records| && HasImage(records[j], t) && offs[j] != 0 && OffsetIndex(offs)[offs[j]] == j
    requires forall i :: j < i < |records| && HasImage(records[i], t) ==> Name(records[i]) != Name(records[j])
    requires t < |resourceFiles| && resourceFiles[t] in folder ==>
               offs[j] + GetPosition(records[j], t).value.1 <= |folder[resourceFiles[t]]|
    ensures t < |resourceFiles| && resourceFiles[t] in folder
    ensures var pngs := UnpackRecords(records, resourceFiles, folder, tree).tree;
            var r := TierPass(t, records, offs, pngs, start);
            var data := folder[resourceFiles[t]];
            var position := GetPosition(records[j], t).value;
            && position.0 == offs[j]
            && SitsAt(r.out, position.0, data[position.0..position.0 + position.1])
            && GetPosition(r.records[j], t) == Ok(position)
            && GetField(r.records[j], SizeField(t)) == Ok(position.1)
  {
    var pngs := UnpackRecords(records, resourceFiles, folder, tree).tree;
    var position := GetPosition(records[j], t).value;
    assert position.0 == offs[j];
    var png := UnpackedSlot(records, resourceFiles, folder, tree, j, t);
    TierPassSlot(t, records, offs, pngs, start, j, png);
  }

  // ---------------------------------------------------------------------
  // The whole repack

  /** The index file name, in the folder read and in `modified`. */
  const IndexName: FileName := Ascii("IconResources.idx")
  /** The tag written at the start of each new data file. */
  const FdraTag: seq<byte> := Ascii("fdra")
  /** The data file names every packed index gets, whatever the original
      index named. */
  const PackedNames: seq<FileName> :=
    [Ascii("PSIconsLowRes.dat"), Ascii("PSIconsHighRes.dat"), Ascii("PSIconsXLowRes.dat"), Ascii("PSIconsXHighRes.dat")]

  /** The `modified` folder afterwards, the records as `get_metadata`
      returns them (meaningful on success), and the error that ended the
      repack, if any. */
  datatype Packed = Packed(modified: Folder, records: seq<ImageMetadata>, err: Option<Error>)

  /** `pack_resources`, with the initial contents of each data file when
      its tier pass starts as a parameter: read the index (a missing one is
      an IOError, a header or data file name that is not UTF-8 a
      DecodeError, both before anything is written), stamp the two data
      files it names with `fdra`, collect the offsets, rebuild the low data
      file, then the high one, and finally write the index with the
      hard-coded data file names and the updated records. Each failure ends
      the repack with everything written so far left in place. */
  function Repack(index: Option<seq<byte>>, pngs: PngTree, modified: Folder, start: seq<byte>): (r: Packed)
    ensures index.None? ==> r.err == Some(IOError) && r.modified == modified
    ensures index.Some? && !IndexDecodes(index.value) ==> r.err == Some(DecodeError) && r.modified == modified
    ensures r.err.None? ==> index.Some? && IndexDecodes(index.value)
                            && IndexName in r.modified && r.modified[IndexName] == PackIndex(PackedNames, r.records)
  {
    match index
    case None => Packed(modified, [], Some(IOError))
    case Some(f) =>
      if !IndexDecodes(f) then Packed(modified, [], Some(DecodeError))
      else RepackIndex(UnpackIndex(f), pngs, modified, start)
  }

  /** The files a repack may write besides the index: the two data files
      the index names. */
  predicate Untouched(files: seq<FileName>, name: FileName)
    requires |files| == SlotCount
  {
    name != files[0] && name != files[1] && name != IndexName
  }

  /** The loop that writes `b'fdra'` to the first two data files. */
  function Stamp(modified: Folder, files: seq<FileName>): (r: Folder)
    requires |files| == SlotCount
    ensures files[0] in r && files[1] in r && r[files[1]] == FdraTag && r[files[0]] == FdraTag
    ensures forall name :: name != files[0] && name != files[1] ==>
              (name in r <==> name in modified) && (name in modified ==> r[name] == modified[name])
  {
    modified[files[0] := FdraTag][files[1] := FdraTag]
  }

  /** The repack from the decoded index on. */
  function RepackIndex(u: Index, pngs: PngTree, modified: Folder, start: seq<byte>): (r: Packed)
    requires |u.names| == SlotCount
    ensures forall name :: Untouched(u.names, name) ==>
              (name in r.modified <==> name in modified) && (name in modified ==> r.modified[name] == modified[name])
    ensures r.err.None? ==> IndexName in r.modified && r.modified[IndexName] == PackIndex(PackedNames, r.records)
    ensures r.err.None? ==> |r.records| == |u.records|
                            && forall j :: 0 <= j < |u.records| ==> |r.records[j].data| == |u.records[j].data|
    ensures r.err.Some? && u.names[0] != IndexName && u.names[1] != IndexName ==>
              (IndexName in r.modified <==> IndexName in modified)
              && (IndexName in modified ==> r.modified[IndexName] == modified[IndexName])
  {
    var stamped := Stamp(modified, u.names);
    assert u.names[0] != IndexName && u.names[1] != IndexName ==>
             (IndexName in stamped <==> IndexName in modified)
             && (IndexName in modified ==> stamped[IndexName] == modified[IndexName]);
    match CollectOffsets(u.records)
    case Err(e) => Packed(stamped, u.records, Some(e))
    case Ok(offs) => RepackTiers(u.names, u.records, offs.0, offs.1, pngs, stamped, start)
  }

  /** The two tier passes and the index write, once the offsets are known;
      `stamped` is `modified` after the stamps. */
  function RepackTiers(files: seq<FileName>, records: seq<ImageMetadata>, lowOffs: seq<nat>, highOffs: seq<nat>,
                       pngs: PngTree, stamped: Folder, start: seq<byte>): (r: Packed)
    requires |files| == SlotCount && |lowOffs| == |records| == |highOffs|
    ensures forall name :: Untouched(files, name) ==>
              (name in r.modified <==> name in stamped) && (name in stamped ==> r.modified[name] == stamped[name])
    ensures r.err.None? ==> IndexName in r.modified && r.modified[IndexName] == PackIndex(PackedNames, r.records)
    ensures r.err.None? ==> |r.records| == |records|
                            && forall j :: 0 <= j < |records| ==> |r.records[j].data| == |records[j].data|
    ensures r.err.Some? && files[0] != IndexName && files[1] != IndexName ==>
              (IndexName in r.modified <==> IndexName in stamped)
              && (IndexName in stamped ==> r.modified[IndexName] == stamped[IndexName])
  {
    var low := TierPass(0, records, lowOffs, pngs, start);
    var afterLow := stamped[files[0] := low.out];
    if low.err.Some? then Packed(afterLow, low.records, low.err)
    else RepackHigh(files, low.records, highOffs, pngs, afterLow, start)
  }

  /** The high tier pass and the index write; `afterLow` is the folder
      after the low pass. */
  function RepackHigh(files: seq<FileName>, records: seq<ImageMetadata>, highOffs: seq<nat>,
                      pngs: PngTree, afterLow: Folder, start: seq<byte>): (r: Packed)
    requires |files| == SlotCount && |highOffs| == |records|
    ensures forall name :: name != files[1] && name != IndexName ==>
              (name in r.modified <==> name in afterLow) && (name in afterLow ==> r.modified[name] == afterLow[name])
    ensures files[1] != IndexName ==> files[1] in r.modified && start <= r.modified[files[1]]
    ensures r.records == TierPass(1, records, highOffs, pngs, start).records
    ensures r.err == TierPass(1, records, highOffs, pngs, start).err
    ensures r.err.None? ==> IndexName in r.modified && r.modified[IndexName] == PackIndex(PackedNames, r.records)
    ensures r.err.Some? && files[1] != IndexName ==>
              (IndexName in r.modified <==> IndexName in afterLow)
              && (IndexName in afterLow ==> r.modified[IndexName] == afterLow[IndexName])
  {
    var high := TierPass(1, records, highOffs, pngs, start);
    var afterHigh := afterLow[files[1] := high.out];
    if high.err.Some? then Packed(afterHigh, high.records, high.err)
    else Packed(afterHigh[IndexName := PackIndex(PackedNames, high.records)], high.records, None)
  }

  /** The contents a tier pass starts from reach only the two data files:
      two repacks that differ in `start` end with the same error, the same
      records and the same other files. */
  lemma RepackStartIndependent(index: Option<seq<byte>>, pngs: PngTree, modified: Folder, a: seq<byte>, b: seq<byte>)
    ensures var ra := Repack(index, pngs, modified, a);
            var rb := Repack(index, pngs, modified, b);
            && ra.err == rb.err && ra.records == rb.records
            && forall name :: (index.Some? ==> name != DataFiles(index)[0] && name != DataFiles(index)[1]) ==>
                 (name in ra.modified <==> name in rb.modified)
                 && (name in rb.modified ==> ra.modified[name] == rb.modified[name])
  {
    if index.Some? && IndexDecodes(index.value) {
      var u := UnpackIndex(index.value);
      if CollectOffsets(u.records).Ok? {
        var offs := CollectOffsets(u.records).value;
        var stamped := Stamp(modified, u.names);
        var ra := RepackTiers(u.names, u.records, offs.0, offs.1, pngs, stamped, a);
        var rb := RepackTiers(u.names, u.records, offs.0, offs.1, pngs, stamped, b);
        assert Repack(index, pngs, modified, a) == ra;
        assert Repack(index, pngs, modified, b) == rb;
        TiersStartIndependent(u.names, u.records, offs.0, offs.1, pngs, stamped, a, b);
      }
    }
  }

  /** The tier passes and the index write, from two different `start`s. */
  lemma TiersStartIndependent(files: seq<FileName>, records: seq<ImageMetadata>, lowOffs: seq<nat>, highOffs: seq<nat>,
                              pngs: PngTree, stamped: Folder, a: seq<byte>, b: seq<byte>)
    requires |files| == SlotCount && |lowOffs| == |records| == |highOffs|
    ensures var ra := RepackTiers(files, records, lowOffs, highOffs, pngs, stamped, a);
            var rb := RepackTiers(files, records, lowOffs, highOffs, pngs, stamped, b);
            && ra.err == rb.err && ra.records == rb.records
            && forall name :: name != files[0] && name != files[1] ==>
                 (name in ra.modified <==> name in rb.modified)
                 && (name in rb.modified ==> ra.modified[name] == rb.modified[name])
  {
    var ra := RepackTiers(files, records, lowOffs, highOffs, pngs, stamped, a);
    var rb := RepackTiers(files, records, lowOffs, highOffs, pngs, stamped, b);
    TierKeys(lowOffs, records);
    PackTierStartIndependent(0, SortedOffsets(lowOffs), OffsetIndex(lowOffs), pngs, a, b, records);
    var la := TierPass(0, records, lowOffs, pngs, a);
    var lb := TierPass(0, records, lowOffs, pngs, b);
    if la.err.Some? {
      assert ra.modified == stamped[files[0] := la.out];
      assert rb.modified == stamped[files[0] := lb.out];
    } else {
      TierKeys(highOffs, la.records);
      PackTierStartIndependent(1, SortedOffsets(highOffs), OffsetIndex(highOffs), pngs, a, b, la.records);
      var ha := TierPass(1, la.records, highOffs, pngs, a);
      var hb := TierPass(1, lb.records, highOffs, pngs, b);
      var fa := stamped[files[0] := la.out][files[1] := ha.out];
      var fb := stamped[files[0] := lb.out][files[1] := hb.out];
      assert ra.err == rb.err && ra.records == rb.records;
      if ha.err.Some? {
        assert ra.modified == fa && rb.modified == fb;
      } else {
        assert ra.modified == fa[IndexName := PackIndex(PackedNames, ha.records)];
        assert rb.modified == fb[IndexName := PackIndex(PackedNames, hb.records)];
      }
    }
  }

  /** `pack_resources` as written: the `'wb'` reopen of each data file for
      its tier pass discards the `fdra` stamp, so the pass starts from an
      empty file. */
  function PackResources(index: Option<seq<byte>>, pngs: PngTree, modified: Folder): Packed {
    Repack(index, pngs, modified, [])
  }

  /** `pack_resources` with the stamp kept: each tier pass appends to the
      stamped file instead of truncating it. Keeping the stamp changes the
      two data files and nothing else: the same error, the same records,
      and every other file of `modified`, the index included, the same as
      `pack_resources` as written leaves it. */
  function PackResourcesStamped(index: Option<seq<byte>>, pngs: PngTree, modified: Folder): (r: Packed)
    ensures var p := PackResources(index, pngs, modified);
            && r.err == p.err && r.records == p.records
            && forall name :: (index.Some? ==> name != DataFiles(index)[0] && name != DataFiles(index)[1]) ==>
                 (name in r.modified <==> name in p.modified)
                 && (name in p.modified ==> r.modified[name] == p.modified[name])
  {
    RepackStartIndependent(index, pngs, modified, FdraTag, []);
    Repack(index, pngs, modified, FdraTag)
  }

  /** The data file names the index read names. */
  function DataFiles(index: Option<seq<byte>>): (names: seq<FileName>)
    requires index.Some?
    ensures |names| == SlotCount
  {
    UnpackIndex(index.value).names
  }

  /** The packed names fit their slots, hold no NUL and are ASCII. */
  lemma PackedNamesFit()
    ensures |PackedNames| == SlotCount
    ensures forall i :: 0 <= i < SlotCount ==> |PackedNames[i]| < DataFileNameLength - 1 && Nul !in PackedNames[i]
    ensures forall i :: 0 <= i < SlotCount ==> Utf8(PackedNames[i])
  {
    forall i | 0 <= i < SlotCount
      ensures Nul !in PackedNames[i] && Utf8(PackedNames[i])
    {
      assert forall j :: 0 <= j < |PackedNames[i]| ==> 0 < PackedNames[i][j] < 0x80;
      AsciiIsUtf8(PackedNames[i]);
    }
  }

  /** Records of unchanged lengths keep the shape a read produces. */
  lemma ChunkedSameLengths(a: seq<ImageMetadata>, b: seq<ImageMetadata>)
    requires Chunked(a) && |a| == |b|
    requires forall j :: 0 <= j < |a| ==> |b[j].data| == |a[j].data|
    ensures Chunked(b)
  {
  }

  /** A successful repack writes an index that reads back as a valid
      header, the hard-coded data file names and exactly the updated
      records, and that a later unpack or repack can decode. */
  lemma RepackWritesIndex(index: Option<seq<byte>>, pngs: PngTree, modified: Folder, start: seq<byte>)
    requires Repack(index, pngs, modified, start).err.None?
    ensures var r := Repack(index, pngs, modified, start);
            && index.Some?
            && IndexName in r.modified
            && UnpackIndex(r.modified[IndexName]) == Index(true, PackedNames, r.records)
            && IndexDecodes(r.modified[IndexName])
            && |r.records| == |UnpackIndex(index.value).records|
  {
    var u := UnpackIndex(index.value);
    var r := RepackIndex(u, pngs, modified, start);
    assert Repack(index, pngs, modified, start) == r;
    ChunkedSameLengths(u.records, r.records);
    PackedNamesFit();
    UnpackPackIndex(PackedNames, r.records);
    PackedIndexDecodes(PackedNames, r.records);
  }

  /** A failed repack leaves the index in `modified` as it was, unless the
      index names itself as one of the two data files. */
  lemma RepackFailureKeepsIndex(index: Option<seq<byte>>, pngs: PngTree, modified: Folder, start: seq<byte>)
    requires index.Some? ==> DataFiles(index)[0] != IndexName && DataFiles(index)[1] != IndexName
    ensures var r := Repack(index, pngs, modified, start);
            r.err.Some? ==>
              && (IndexName in r.modified <==> IndexName in modified)
              && (IndexName in modified ==> r.modified[IndexName] == modified[IndexName])
  {
    if index.Some? && IndexDecodes(index.value) {
      var u := UnpackIndex(index.value);
      assert Repack(index, pngs, modified, start) == RepackIndex(u, pngs, modified, start);
    }
  }

  /** A repack touches no file of `modified` but the two data files the
      index names and the new index; a missing index touches nothing. */
  lemma RepackFrame(index: Option<seq<byte>>, pngs: PngTree, modified: Folder, start: seq<byte>, name: FileName)
    requires index.Some? ==> Untouched(DataFiles(index), name)
    ensures var r := Repack(index, pngs, modified, start);
            && (name in r.modified <==> name in modified)
            && (name in modified ==> r.modified[name] == modified[name])
  {
  }

  /** The data files after the tier passes: the low one holds a pass's
      output, the high one its stamp or a pass's output. */
  lemma TiersDataFiles(files: seq<FileName>, records: seq<ImageMetadata>, lowOffs: seq<nat>, highOffs: seq<nat>,
                       pngs: PngTree, stamped: Folder, start: seq<byte>)
    requires |files| == SlotCount && |lowOffs| == |records| == |highOffs|
    requires files[1] in stamped
    ensures var r := RepackTiers(files, records, lowOffs, highOffs, pngs, stamped, start);
            && (files[0] != IndexName ==> files[0] in r.modified && start <= r.modified[files[0]])
            && (files[1] != IndexName ==>
                  files[1] in r.modified
                  && (r.modified[files[1]] == stamped[files[1]] || start <= r.modified[files[1]]))
  {
    var low := TierPass(0, records, lowOffs, pngs, start);
    var afterLow := stamped[files[0] := low.out];
    assert start <= low.out;
    if low.err.None? {
      var high := TierPass(1, low.records, highOffs, pngs, start);
      assert start <= high.out;
      var afterHigh := afterLow[files[1] := high.out];
      assert files[0] in afterHigh && start <= afterHigh[files[0]];
      assert files[1] in afterHigh && start <= afterHigh[files[1]];
    }
  }

  /** A tier pass from an empty file leaves it empty or starting with a
      zero byte. */
  lemma PassLeadingZero(t: nat, records: seq<ImageMetadata>, offs: seq<nat>, pngs: PngTree)
    requires |offs| == |records|
    ensures var out := TierPass(t, records, offs, pngs, []).out;
            out == [] || out[0] == 0
  {
    TierKeys(offs, records);
    PackTierLeadingZero(t, SortedOffsets(offs), OffsetIndex(offs), pngs, [], records);
  }

  /** The low pass starting the low data file is the only thing between an
      empty `start` and its first byte. */
  lemma TiersLowLeadingZero(files: seq<FileName>, records: seq<ImageMetadata>, lowOffs: seq<nat>, highOffs: seq<nat>,
                            pngs: PngTree, stamped: Folder)
    requires |files| == SlotCount && |lowOffs| == |records| == |highOffs|
    requires files[0] != files[1] && files[0] != IndexName
    ensures var r := RepackTiers(files, records, lowOffs, highOffs, pngs, stamped, []);
            files[0] in r.modified && (r.modified[files[0]] == [] || r.modified[files[0]][0] == 0)
  {
    var low := TierPass(0, records, lowOffs, pngs, []);
    PassLeadingZero(0, records, lowOffs, pngs);
    var r := RepackTiers(files, records, lowOffs, highOffs, pngs, stamped, []);
    assert files[0] in r.modified && r.modified[files[0]] == low.out;
  }

  /** The records a successful repack writes to the index: each is the
      original record after the low pass's update, if any, and then the
      high pass's. */
  lemma TiersRecords(files: seq<FileName>, records: seq<ImageMetadata>, lowOffs: seq<nat>, highOffs: seq<nat>,
                     pngs: PngTree, stamped: Folder, start: seq<byte>)
    requires |files| == SlotCount && |lowOffs| == |records| == |highOffs|
    requires RepackTiers(files, records, lowOffs, highOffs, pngs, stamped, start).err.None?
    ensures var low := TierPass(0, records, lowOffs, pngs, start);
            var r := RepackTiers(files, records, lowOffs, highOffs, pngs, stamped, start);
            && low.err.None? && |low.records| == |records| == |r.records|
            && forall j :: 0 <= j < |records| ==>
                 PassUpdates(0, records, lowOffs, pngs, low.records, j)
                 && PassUpdates(1, low.records, highOffs, pngs, r.records, j)
  {
    var low := TierPass(0, records, lowOffs, pngs, start);
    TierPassRecords(0, records, lowOffs, pngs, start);
    TierPassRecords(1, low.records, highOffs, pngs, start);
  }

  /** A failing low pass ends the repack: the high data file and the index
      are left as they were. */
  lemma TiersLowFailure(files: seq<FileName>, records: seq<ImageMetadata>, lowOffs: seq<nat>, highOffs: seq<nat>,
                        pngs: PngTree, stamped: Folder, start: seq<byte>)
    requires |files| == SlotCount && |lowOffs| == |records| == |highOffs|
    requires TierPass(0, records, lowOffs, pngs, start).err.Some?
    ensures var r := RepackTiers(files, records, lowOffs, highOffs, pngs, stamped, start);
            && r.err == TierPass(0, records, lowOffs, pngs, start).err
            && forall name :: name != files[0] ==>
                 (name in r.modified <==> name in stamped) && (name in stamped ==> r.modified[name] == stamped[name])
  {
  }

  /** A failure in the low tier ends the repack there: the high data file
      keeps only its stamp and no index is written. */
  lemma RepackLowFailure(index: Option<seq<byte>>, pngs: PngTree, modified: Folder, start: seq<byte>)
    requires index.Some? && IndexDecodes(index.value)
    requires CollectOffsets(UnpackIndex(index.value).records).Ok?
    requires var u := UnpackIndex(index.value);
             TierPass(0, u.records, CollectOffsets(u.records).value.0, pngs, start).err.Some?
    ensures var r := Repack(index, pngs, modified, start);
            var u := UnpackIndex(index.value);
            var files := u.names;
            && r.err == TierPass(0, u.records, CollectOffsets(u.records).value.0, pngs, start).err
            && (files[1] != files[0] ==> files[1] in r.modified && r.modified[files[1]] == FdraTag)
            && (IndexName != files[0] && IndexName != files[1] ==>
                  (IndexName in r.modified <==> IndexName in modified)
                  && (IndexName in modified ==> r.modified[IndexName] == modified[IndexName]))
  {
    var u := UnpackIndex(index.value);
    var offs := CollectOffsets(u.records).value;
    var stamped := Stamp(modified, u.names);
    var r := RepackTiers(u.names, u.records, offs.0, offs.1, pngs, stamped, start);
    assert Repack(index, pngs, modified, start) == r;
    TiersLowFailure(u.names, u.records, offs.0, offs.1, pngs, stamped, start);
    assert u.names[1] != u.names[0] ==> r.modified[u.names[1]] == stamped[u.names[1]];
  }

  /** Once the index decodes, each of the two data files ends up holding
      its stamp alone or a tier pass's output, which begins with `start`. */
  lemma RepackDataFileStart(index: Option<seq<byte>>, pngs: PngTree, modified: Folder, start: seq<byte>, t: nat)
    requires index.Some? && t < 2 && DataFiles(index)[t] != IndexName
    ensures var r := Repack(index, pngs, modified, start);
            var name := DataFiles(index)[t];
            IndexDecodes(index.value) ==>
              name in r.modified && (r.modified[name] == FdraTag || start <= r.modified[name])
  {
    if IndexDecodes(index.value) {
      var u := UnpackIndex(index.value);
      assert Repack(index, pngs, modified, start) == RepackIndex(u, pngs, modified, start);
      IndexDataFileStart(u, pngs, modified, start, t);
    }
  }

  /** RepackDataFileStart for the decoded index `u`. */
  lemma IndexDataFileStart(u: Index, pngs: PngTree, modified: Folder, start: seq<byte>, t: nat)
    requires |u.names| == SlotCount && t < 2 && u.names[t] != IndexName
    ensures var r := RepackIndex(u, pngs, modified, start);
            u.names[t] in r.modified && (r.modified[u.names[t]] == FdraTag || start <= r.modified[u.names[t]])
  {
    var files := u.names;
    var stamped := Stamp(modified, files);
    assert files[t] == files[0] || files[t] == files[1];
    if CollectOffsets(u.records).Ok? {
      var offs := CollectOffsets(u.records).value;
      assert RepackIndex(u, pngs, modified, start)
          == RepackTiers(files, u.records, offs.0, offs.1, pngs, stamped, start);
      TiersDataFiles(files, u.records, offs.0, offs.1, pngs, stamped, start);
    } else {
      assert RepackIndex(u, pngs, modified, start).modified == stamped;
    }
  }

  /** As written, the low data file of a repack that gets past collecting
      the offsets never begins with the `fdra` stamp: it is empty or starts
      with a zero byte. */
  lemma PackResourcesLosesStamp(index: Option<seq<byte>>, pngs: PngTree, modified: Folder)
    requires index.Some? && IndexDecodes(index.value)
    requires CollectOffsets(UnpackIndex(index.value).records).Ok?
    requires DataFiles(index)[0] != DataFiles(index)[1] && DataFiles(index)[0] != IndexName
    ensures var r := PackResources(index, pngs, modified);
            var name := DataFiles(index)[0];
            && name in r.modified
            && (r.modified[name] == [] || r.modified[name][0] == 0)
            && !(FdraTag <= r.modified[name])
  {
    var u := UnpackIndex(index.value);
    var offs := CollectOffsets(u.records).value;
    var stamped := Stamp(modified, u.names);
    assert PackResources(index, pngs, modified) == RepackTiers(u.names, u.records, offs.0, offs.1, pngs, stamped, []);
    TiersLowLeadingZero(u.names, u.records, offs.0, offs.1, pngs, stamped);
    assert FdraTag[0] == 0x66;
  }

  /** With the stamp kept, both data files always begin with `fdra` once
      the index decodes. */
  lemma PackResourcesStampedKeepsStamp(index: Option<seq<byte>>, pngs: PngTree, modified: Folder, t: nat)
    requires index.Some? && t < 2 && DataFiles(index)[t] != IndexName
    ensures var r := PackResourcesStamped(index, pngs, modified);
            IndexDecodes(index.value) ==>
              DataFiles(index)[t] in r.modified && FdraTag <= r.modified[DataFiles(index)[t]]
  {
    RepackDataFileStart(index, pngs, modified, FdraTag, t);
  }
}

=== FILE: png.dfy ===
/** The PNG header reader (`get_png_dimensions`): find the first `IHDR` chunk
    type and read the image width and height that follow it, each a 4-byte
    unsigned integer in network byte order (sections 5.3, 7.1 and 11.2.2 of
    the PNG specification, W3C 2nd edition / ISO/IEC 15948). Nothing else of
    the file is checked: not the signature, the chunk length nor the CRC. */
module PngHeader {
  import opened Results
  import opened Primitives

  /** The chunk type `IHDR` in ASCII. */
  const Ihdr: seq<byte> := [0x49, 0x48, 0x44, 0x52]
  /** The reader's four-byte window starts out as four ASCII '0's. */
  const DrumStart: seq<byte> := [0x30, 0x30, 0x30, 0x30]

  /** `IHDR` starts at byte `k`. */
  predicate IhdrAt(png: seq<byte>, k: nat) {
    k + 4 <= |png| && png[k..k + 4] == Ihdr
  }

  /** The first start of `IHDR` at or after `from`. */
  function FindIhdr(png: seq<byte>, from: nat): (r: Option<nat>)
    ensures r.Some? ==> from <= r.value && IhdrAt(png, r.value)
    ensures r.Some? ==> forall k :: from <= k < r.value ==> !IhdrAt(png, k)
    ensures r.None? ==> forall k :: from <= k ==> !IhdrAt(png, k)
    decreases |png| - from
  {
    if from + 4 > |png| then None
    else if png[from..from + 4] == Ihdr then Some(from)
    else FindIhdr(png, from + 1)
  }

  /** `get_png_dimensions`: (width, height) from the eight bytes after the
      first `IHDR`. No `IHDR` is an IOError; an `IHDR` too close to the end
      for two full integers makes `struct.unpack` fail. */
  function PngDimensions(png: seq<byte>): (r: Result<(nat, nat)>)
    ensures r == Err(IOError) <==> forall k: nat :: !IhdrAt(png, k)
    ensures r.Ok? <==> FindIhdr(png, 0).Some? && FindIhdr(png, 0).value + 12 <= |png|
    ensures r.Ok? ==> var k := FindIhdr(png, 0).value;
                      r.value == (BigEndian(png[k + 4..k + 8]), BigEndian(png[k + 8..k + 12]))
    ensures r.Ok? ==> r.value.0 < TwoTo32 && r.value.1 < TwoTo32
  {
    match FindIhdr(png, 0)
    case None => Err(IOError)
    case Some(k) =>
      var width := Slice(png, k + 4, k + 8);
      var height := Slice(png, k + 8, k + 12);
      if |width| < 4 || |height| < 4 then Err(StructError)
      else
        LittleEndianBound([width[3], width[2], width[1], width[0]]);
        LittleEndianBound([height[3], height[2], height[1], height[0]]);
        assert width == png[k + 4..k + 8] && height == png[k + 8..k + 12];
        Ok((BigEndian(width), BigEndian(height)))
  }

  /** The drum after `pos` bytes have been read: the last four bytes of
      the primer followed by the file so far. */
  ghost predicate DrumAfter(png: seq<byte>, pos: nat, drum: seq<byte>) {
    pos <= |png| && drum == (DrumStart + png[..pos])[pos..pos + 4]
  }

  lemma DrumStep(png: seq<byte>, pos: nat, drum: seq<byte>)
    requires DrumAfter(png, pos, drum) && pos < |png|
    ensures DrumAfter(png, pos + 1, drum[1..] + [png[pos]])
  {
    var before := DrumStart + png[..pos];
    var after := DrumStart + png[..pos + 1];
    assert after == before + [png[pos]];
    assert after[pos + 1..pos + 5] == before[pos + 1..pos + 4] + [png[pos]];
  }

  /** The drum reads `IHDR` exactly when the last four bytes read are
      `IHDR`: the primer's '0's can never be part of a match. */
  lemma DrumMatches(png: seq<byte>, pos: nat, drum: seq<byte>)
    requires DrumAfter(png, pos, drum)
    ensures drum == Ihdr <==> pos >= 4 && IhdrAt(png, pos - 4)
  {
    var window := DrumStart + png[..pos];
    if pos >= 4 {
      assert window[pos..pos + 4] == png[pos - 4..pos];
    } else {
      assert drum[0] == DrumStart[pos] == 0x30;
    }
  }

  /** An `IHDR` with none before it is the one FindIhdr finds. */
  lemma FindFirstIhdr(png: seq<byte>, k: nat)
    requires IhdrAt(png, k)
    requires forall j: nat :: j < k ==> !IhdrAt(png, j)
    ensures FindIhdr(png, 0) == Some(k)
  {
  }

  /** The source's algorithm: slide a four-byte drum over the file one byte
      at a time until it reads `IHDR`, failing at end of file, then read two
      big-endian integers. It computes exactly PngDimensions. */
  method ReadPngDimensions(png: seq<byte>) returns (r: Result<(nat, nat)>)
    ensures r == PngDimensions(png)
  {
    var drum := DrumStart;
    var pos: nat := 0;
    while drum != Ihdr
      invariant DrumAfter(png, pos, drum)
      invariant forall k: nat :: k + 4 < pos ==> !IhdrAt(png, k)
      decreases |png| - pos
    {
      DrumMatches(png, pos, drum);
      if pos == |png| {
        assert forall k: nat :: !IhdrAt(png, k);
        return Err(IOError);
      }
      DrumStep(png, pos, drum);
      drum := drum[1..] + [png[pos]];
      pos := pos + 1;
    }
    DrumMatches(png, pos, drum);
    FindFirstIhdr(png, pos - 4);
    var width := Slice(png, pos, pos + 4);
    if |width| < 4 {
      return Err(StructError);
    }
    var height := Slice(png, pos + 4, pos + 8);
    if |height| < 4 {
      return Err(StructError);
    }
    r := Ok((BigEndian(width), BigEndian(height)));
  }
}

=== FILE: primitives.dfy ===
/** The binary primitives of the icon-resource format: unsigned 32-bit
    integers in little-endian order (the `<I` struct format) and
    NUL-padded / NUL-terminated strings. Strings are modelled by their UTF-8
    encoding, so a name is a byte sequence throughout. */
module Primitives {
  import opened Results

  type byte = b: int | 0 <= b < 0x100

  const Nul: byte := 0
  const TwoTo32: int := 0x1_0000_0000

  /** `b'\x00' * n` */
  function Zeros(n: nat): (z: seq<byte>)
    ensures |z| == n
    ensures forall i :: 0 <= i < n ==> z[i] == 0
  {
    seq(n, _ => 0)
  }

  function Min(a: int, b: int): int {
    if a <= b then a else b
  }

  /** Python's slice `s[lo:hi]` for 0 <= lo <= hi: both ends are clamped to
      the length of `s`, so a slice past the end is short or empty. */
  function Slice(s: seq<byte>, lo: nat, hi: nat): (r: seq<byte>)
    requires lo <= hi
    ensures |r| == if lo >= |s| then 0 else Min(hi, |s|) - lo
    ensures forall i :: 0 <= i < |r| ==> r[i] == s[lo + i]
  {
    s[Min(lo, |s|)..Min(hi, |s|)]
  }

  /** `read_string`: the bytes before the first NUL, or all of them when
      there is none. The UTF-8 decoding step is the separate check `Utf8`,
      applied to a record's name by `Metadata.NameDecodes`. */
  function ReadString(data: seq<byte>): (s: seq<byte>)
    ensures s <= data
    ensures Nul !in s
    ensures |s| < |data| ==> data[|s|] == Nul
  {
    if |data| == 0 || data[0] == Nul then []
    else [data[0]] + ReadString(data[1..])
  }

  /** A UTF-8 continuation byte. */
  predicate Continuation(b: byte) {
    0x80 <= b <= 0xBF
  }

  /** The second byte of a three-byte character led by `lead` (0xE0-0xEF):
      after 0xE0 it must exclude overlong forms, after 0xED surrogates. */
  predicate SecondOfThree(lead: byte, b: byte) {
    if lead == 0xE0 then 0xA0 <= b <= 0xBF
    else if lead == 0xED then 0x80 <= b <= 0x9F
    else Continuation(b)
  }

  /** The second byte of a four-byte character led by `lead` (0xF0-0xF4):
      after 0xF0 it must exclude overlong forms, after 0xF4 code points
      above U+10FFFF. */
  predicate SecondOfFour(lead: byte, b: byte) {
    if lead == 0xF0 then 0x90 <= b <= 0xBF
    else if lead == 0xF4 then 0x80 <= b <= 0x8F
    else Continuation(b)
  }

  /** The length of the well-formed UTF-8 character that starts `s`, or 0
      when none does. This is the syntax of section 4 of RFC 3629, which is
      what Python's strict `decode('utf-8')` accepts: no overlong forms, no
      surrogates (U+D800 to U+DFFF) and nothing above U+10FFFF. */
  function CharLength(s: seq<byte>): (n: nat)
    ensures n <= |s| && n <= 4
    ensures n == 1 <==> |s| > 0 && s[0] < 0x80
    ensures n > 1 ==> forall i :: 1 <= i < n ==> Continuation(s[i])
  {
    if |s| == 0 then 0
    else if s[0] < 0x80 then 1
    else if 0xC2 <= s[0] <= 0xDF then
      if |s| >= 2 && Continuation(s[1]) then 2 else 0
    else if 0xE0 <= s[0] <= 0xEF then
      if |s| >= 3 && SecondOfThree(s[0], s[1]) && Continuation(s[2]) then 3 else 0
    else if 0xF0 <= s[0] <= 0xF4 then
      if |s| >= 4 && SecondOfFour(s[0], s[1]) && Continuation(s[2]) && Continuation(s[3]) then 4 else 0
    else 0
  }

  /** `s.decode('utf-8')` succeeds: `s` is a run of well-formed characters. */
  predicate Utf8(s: seq<byte>)
    decreases |s|, 1
  {
    |s| == 0 || Utf8Cons(s)
  }

  /** A non-empty well-formed sequence: a character, then a well-formed
      rest. */
  predicate Utf8Cons(s: seq<byte>)
    decreases |s|, 0
  {
    CharLength(s) > 0 && Utf8(s[CharLength(s)..])
  }

  /** Examples from section 4 of RFC 3629 and the Unicode tables: a
      two-byte letter decodes; a lone continuation byte, an overlong NUL, an
      encoded surrogate and a byte never used in UTF-8 do not. */
  lemma Utf8Examples()
    ensures Utf8([0xC3, 0xA9])
    ensures !Utf8([0x80]) && !Utf8([0xC0, 0x80]) && !Utf8([0xED, 0xA0, 0x80]) && !Utf8([0xFF])
  {
    assert CharLength([0xC3, 0xA9]) == 2;
    assert [0xC3, 0xA9][2..] == [];
  }

  /** ASCII text always decodes. */
  lemma {:induction false} AsciiIsUtf8(s: seq<byte>)
    requires forall i :: 0 <= i < |s| ==> s[i] < 0x80
    ensures Utf8(s)
    decreases |s|
  {
    if |s| > 0 {
      assert CharLength(s) == 1;
      AsciiIsUtf8(s[1..]);
    }
  }

  /** `write_string`: the string, then NULs up to `padding` bytes; a string
      that does not fit gets exactly one NUL and is not truncated. A string
      exactly `padding` long gets no terminator at all. */
  function WriteString(s: seq<byte>, padding: int): (w: seq<byte>)
    ensures |s| <= padding ==> |w| == padding
    ensures |s| > padding ==> |w| == |s| + 1
    ensures |s| <= |w| && w[..|s|] == s
    ensures forall i :: |s| <= i < |w| ==> w[i] == Nul
  {
    var length := padding - |s|;
    s + Zeros(if length < 0 then 1 else length)
  }

  /** The value of four bytes, least significant first. */
  function LittleEndian(b: seq<byte>): nat
    requires |b| == 4
  {
    b[0] as int + 0x100 * (b[1] as int + 0x100 * (b[2] as int + 0x100 * b[3] as int))
  }

  /** The value of four bytes, most significant first (network order). */
  function BigEndian(b: seq<byte>): nat
    requires |b| == 4
  {
    LittleEndian([b[3], b[2], b[1], b[0]])
  }

  /** `read_int`: `struct.unpack('<I', data)`, which demands exactly four
      bytes. */
  function ReadInt(data: seq<byte>): (r: Result<nat>)
    ensures r.Ok? <==> |data| == 4
    ensures r.Ok? ==> r.value < TwoTo32
  {
    if |data| != 4 then Err(StructError) else Ok(LittleEndian(data))
  }

  /** `write_int`: `struct.pack('<I', n)`, which refuses values outside
      [0, 2^32). */
  function WriteInt(n: int): (r: Result<seq<byte>>)
    ensures r.Ok? <==> 0 <= n < TwoTo32
    ensures r.Ok? ==> |r.value| == 4 && r.value[0] == n % 0x100
  {
    if n < 0 || n >= TwoTo32 then Err(StructError)
    else Ok([n % 0x100, (n / 0x100) % 0x100, (n / 0x1_0000) % 0x100, (n / 0x100_0000) % 0x100])
  }

  lemma LittleEndianBound(b: seq<byte>)
    requires |b| == 4
    ensures LittleEndian(b) < TwoTo32
  {
    var hi := b[1] as int + 0x100 * (b[2] as int + 0x100 * b[3] as int);
    assert b[2] as int + 0x100 * b[3] as int < 0x1_0000;
    assert hi < 0x100_0000;
  }

  /** read_int(write_int(n)) == n on the whole range write_int accepts. */
  lemma ReadWriteInt(n: int)
    requires 0 <= n < TwoTo32
    ensures WriteInt(n).Ok? && |WriteInt(n).value| == 4
    ensures ReadInt(WriteInt(n).value) == Ok(n)
  {
    var q1 := n / 0x100;
    var q2 := q1 / 0x100;
    var q3 := q2 / 0x100;
    assert n / 0x1_0000 == q2;
    assert n / 0x100_0000 == q3;
    assert q3 < 0x100;
    assert n == n % 0x100 + 0x100 * (q1 % 0x100 + 0x100 * (q2 % 0x100 + 0x100 * q3));
  }

  /** Euclidean division by a power of 256 is determined by its quotient
      and remainder. */
  lemma DivModOf(n: int, e: nat, q: int, r: int)
    requires 1 <= e <= 3
    requires 0 <= r < Pow256(e) && n == q * Pow256(e) + r
    ensures n / Pow256(e) == q && n % Pow256(e) == r
  {
    if e == 1 {
      assert n == q * 0x100 + r;
    } else if e == 2 {
      assert n == q * 0x1_0000 + r;
    } else {
      assert n == q * 0x100_0000 + r;
    }
  }

  function Pow256(e: nat): nat
    requires e <= 3
  {
    if e == 0 then 1 else if e == 1 then 0x100 else if e == 2 then 0x1_0000 else 0x100_0000
  }

  /** write_int(read_int(b)) == b for every four-byte buffer: the encoding is
      a bijection between [0, 2^32) and four-byte sequences. */
  lemma WriteReadInt(b: seq<byte>)
    requires |b| == 4
    ensures ReadInt(b).Ok? && WriteInt(ReadInt(b).value) == Ok(b)
  {
    LittleEndianBound(b);
    var n := LittleEndian(b);
    var q1 := b[1] as int + 0x100 * (b[2] as int + 0x100 * b[3] as int);
    var q2 := b[2] as int + 0x100 * b[3] as int;
    DivModOf(n, 1, q1, b[0]);
    DivModOf(q1, 1, q2, b[1]);
    DivModOf(q2, 1, b[3], b[2]);
    DivModOf(n, 2, q2, b[0] as int + 0x100 * b[1] as int);
    DivModOf(n, 3, b[3], b[0] as int + 0x100 * (b[1] as int + 0x100 * b[2] as int));
    DivModOf(b[3], 1, 0, b[3]);
    assert WriteInt(n).value == b;
  }

  /** Reading back a written string: the NUL padding stops read_string at
      the end of the original, whatever follows the padding. The string must
      itself contain no NUL. Only a string exactly the field's width gets no
      padding, and it reads back unchanged exactly when nothing non-NUL
      follows it. */
  lemma {:induction false} ReadWriteString(s: seq<byte>, padding: int, rest: seq<byte>)
    requires Nul !in s
    ensures ReadString(WriteString(s, padding) + rest) == s
        <==> |s| != padding || rest == [] || rest[0] == Nul
  {
    var w := WriteString(s, padding) + rest;
    var r := ReadString(w);
    assert |s| <= |w| && w[..|s|] == s;
    assert forall i :: 0 <= i < |s| ==> w[i] != Nul;
    if |s| == |w| || w[|s|] == Nul {
      assert |r| == |s|;
      assert r == w[..|s|];
    } else {
      assert w[|s|] != Nul;
      assert |r| > |s|;
    }
    if |s| != padding {
      assert w[|s|] == Nul;
    } else if rest != [] {
      assert WriteString(s, padding) == s;
      assert w[|s|] == rest[0];
    }
  }
}

=== FILE: results.dfy ===
/** The failure kinds the icon-resource codec can raise, and a failure-compatible
    Result/Option pair so that the model can propagate them with `:-`. */
module Results {

  /** Python exceptions raised by the codec, as data.
      - StructError: `struct.pack`/`struct.unpack` given a value out of range
        or a buffer of the wrong length
      - IndexError: a `bytearray` or tuple index out of range
      - IOError: a missing file, or a PNG without an `IHDR` chunk
      - MemoryError: a replacement PNG longer than the slot it must fit in
      - DecodeError: `bytes.decode('utf-8')` given bytes that are not
        well-formed UTF-8 (`UnicodeDecodeError`) */
  datatype Error = StructError | IndexError | IOError | MemoryError | DecodeError

  datatype Result<+T> = Ok(value: T) | Err(error: Error) {

    predicate IsFailure() {
      Err?
    }

    function PropagateFailure<U>(): Result<U>
      requires Err?
    {
      Err(error)
    }

    function Extract(): T
      requires Ok?
    {
      value
    }
  }

  datatype Option<+T> = None | Some(value: T)
}
